=== FILE: README.md ===
# maroppsapis proxy core in Dafny

A model of the Flask proxy in `api/index.py` and `app.py`. The two files are
near-duplicates of one server that downloads short videos through the ttsave
provider and music through the spotdown provider. Each file is modelled as
written, and where the two disagree both behaviours are kept and compared.

Modules, one per concern of the handlers:

| module | file | what it models |
|---|---|---|
| `Options`, `Seqs` | options.dfy, seqs.dfy | option values; subsequence, prefix, count and no-duplicate predicates |
| `Text` | text.dfy | Python's `in` on strings, `str.strip()` over the full `isspace()` set, `rstrip('/')` |
| `Sanitize` | sanitize.dfy | both `sanitize_filename` versions: app.py strips the reserved characters; api/index.py also cuts the result to 50 |
| `Relay` | relay.dfy | the `generate()` chunk filter of the streaming routes |
| `Params` | params.dfy | query/JSON parameters, Python truthiness of a missing or empty value, and both URL resolutions (api/index.py body first, app.py query first) |
| `Upstream` | upstream.dfy | the providers, each file's fixed header sets, outbound calls as data, Content-Disposition |
| `Stream` | stream.dfy | api/index.py's `stream_content` |
| `Extract` | extract.dfy | the anchor-classification loop of both `tiktok_download` versions and the author default |
| `TikTok` | tiktok.dfy | both `tiktok_download` handlers end to end |
| `QueryString` | query_string.dfy | how the download route reads `url`, `title` and `artist` back from a link, and the escaping that makes this reliable |
| `Music` | music.dfy | app.py's `music_search` and `music_download` |

A handler is a pure function. It takes the request arguments and what
the upstream would answer, and returns an `Exchange`: the outbound calls it
issues, in order, and its reply. The upstream's answers are inputs. The
HTTP client, HTML parser and clock are not modelled.

The anchor loop is specified twice. `Extract.Run` is the fold over the
links as the code runs it. The ghost predicates `VideoAt`, `FirstVideoAt`,
`LastAudioAt`, `SlideHref`, `NewSlideAt` and `LastEventAt` say what each
result field means in terms of document positions. Lemmas connect the two.

In the code `type` is the tag of the last video append or new-slide
insertion. So a slide after a video leaves `type` at `slide` with `video`
set (`Extract.SlideAfterVideo`).

The two streaming routes build their response headers only after the
upstream calls are made. Werkzeug refuses a header value that holds a
carriage return or a line feed, and the route's `except` clause turns that
refusal into a 500. `Upstream.Respond` models this step. So a file name,
title or artist with a line break costs the upstream calls and then gives
a 500 with Werkzeug's message.

## Model

| member | source | states |
|---|---|---|
| Sanitize.StripReserved | app.py:28-29 | the result holds none of the nine reserved characters, and its length is the input's minus the number of reserved characters in it, so it never lengthens the input |
| Sanitize.StripReservedSubsequence | app.py:28-29 | the result is a subsequence of the input; with the length fact it is exactly the non-reserved characters, in order |
| Sanitize.StripReservedKeepsClean | app.py:28-29 | an input without reserved characters is returned unchanged |
| Sanitize.StripReservedKeepsChar | app.py:28-29 | a character outside the reserved set is in the result exactly when it is in the input, so line breaks survive sanitizing |
| Sanitize.StripReservedIdempotent | app.py:28-29 | sanitizing twice equals sanitizing once |
| Sanitize.SanitizeApi | api/index.py:25-28 | the result is clean, at most 50 long and a prefix of the stripped input; it is the whole stripped input when that has at most 50 characters, and exactly 50 characters otherwise |
| Sanitize.SanitizeApiKeepsShortClean | api/index.py:25-28 | a clean input of at most 50 characters is returned unchanged |
| Sanitize.SanitizeApiIdempotent | api/index.py:25-28 | the truncating sanitizer is idempotent |
| Relay.Forwarded | api/index.py:76-79 | every forwarded chunk is non-empty, there is one per non-empty upstream chunk, and the forwarded bytes are exactly the upstream bytes |
| Relay.ForwardedSubsequence | api/index.py:76-79 | the forwarded chunks are upstream chunks in upstream order |
| Relay.ForwardedAppend | app.py:198-201 | relaying is incremental: the output for a concatenation is the concatenation of the outputs |
| Relay.ForwardedKeepsNonEmpty | app.py:198-201 | a stream without empty chunks passes unchanged, so relaying is idempotent |
| Relay.ForwardedBounded | api/index.py:77 | for any bound `n`, when no read is longer than `n` bytes, no forwarded chunk is either; with `iter_content(chunk_size=4096)` no forwarded chunk exceeds 4096 bytes |
| Relay.Generate | api/index.py:76-79 | the generator loop yields exactly the filtered stream, with its bytes and non-empty chunks |
| Text.Strip | api/index.py:110 | the result has no whitespace at either end and sits in the input framed by whitespace only; both facts fix it uniquely |
| Text.StripTrimmed | api/index.py:110 | a string with no whitespace at either end is left alone |
| Text.RStripChar | app.py:134 | the result is a prefix of the input, everything cut is the given character, and the result does not end with it |
| Text.ContainsIff | api/index.py:115 | substring membership holds exactly when the needle occurs at some offset |
| Params.Required | api/index.py:94 | a value passes the `not url` guard exactly when it is present and non-empty |
| Params.UrlApi | api/index.py:91-92 | the url is the query's or, for a truthy body, the body's; a body holding a usable url always wins, and a truthy body without `url` gives no url even when the query has one; a truthy body whose url is missing or empty never yields a usable url |
| Params.UrlApp | app.py:45-49 | the url is the query's or the body's; a usable query url always wins, and otherwise a body with a `url` key supplies it |
| Params.UrlSourcesAgree | app.py:45-49 | when only one place can supply the url, both files accept the same url |
| Params.UrlSourcesConflict | api/index.py:92 | when query and body both carry a url, api/index.py uses the body's and app.py the query's |
| Params.BodyWithoutUrlHidesQuery | api/index.py:92 | a truthy body without `url`, or with an empty one, hides the query's url from api/index.py but not from app.py |
| Upstream.StreamProvider | api/index.py:55 | the short-video headers are chosen exactly when the url contains `tiktok` or `ttsave` |
| Upstream.Respond | api/index.py:81 | the response streams exactly when no header value holds a carriage return or a line feed, carrying the given headers and body; otherwise it is the 500 with Werkzeug's newline message |
| Upstream.DispositionSafe | api/index.py:71 | the Content-Disposition value is free of line breaks exactly when the file name is |
| Upstream.DispositionRoundTrip | api/index.py:71 | a name without a double quote is read back intact from the Content-Disposition value |
| Stream.ContentTypeFor | api/index.py:61-62 | `video` gives `video/mp4`, `image` gives `image/jpeg`, anything else gives `audio/mpeg` |
| Stream.ExtensionFor | api/index.py:65-66 | `video` gives `mp4`, `image` gives `jpg`, anything else gives `mp3` |
| Stream.FinalFilename | api/index.py:64-66 | the name is a stem, a dot and the type's extension; the stem is clean, a prefix of the stripped name, and exactly its length capped at 50 |
| Stream.StreamHeadersSafe | api/index.py:64-73 | the three response headers are free of line breaks exactly when the sanitized file name is |
| Stream.StreamContent | api/index.py:46-84 | a missing or empty url is answered 400 without any upstream call; otherwise there is exactly one call, then a 200, or a 500 when the sanitized file name holds a line break |
| Stream.FinalFilenameInHeader | api/index.py:64-71 | the served name reads back intact from the Content-Disposition header |
| Stream.StreamContentAccepted | api/index.py:53-84 | for an accepted url: one streamed GET to it with the headers its host calls for; the reply streams exactly when the sanitized name has no line break, and is otherwise Werkzeug's 500; a streamed reply has the content type and file name of the requested type, a `Content-Disposition` header carrying that name, no caching, and as body exactly the relayed upstream chunks (`Relay.Forwarded`), chunk for chunk |
| Stream.DefaultTypeIsAudio | api/index.py:48 | without `type` (default `mp4`), a streamed reply is `audio/mpeg` with a `Content-Disposition` naming a `.mp3` file, and the reply streams exactly when the sanitized name has no line break |
| Extract.Classify | api/index.py:115-122 | each link falls in exactly one bucket, with priority video, then `.mp3`, then slide |
| Extract.StepFrame | api/index.py:115-123 | one link appends at most its own href to the video or the slide list and to nothing else, leaves `audio` alone or sets it to its href, and never moves `type` back to unknown |
| Extract.Run | api/index.py:106-123 | the slide list has no duplicates; `type` is unknown exactly when no video and no slide was recorded; a video or slide tag comes with a non-empty list |
| Extract.RunVideos | api/index.py:112-116 | the candidate list is the hrefs of the video-classified links in document order, per an independent front-to-back definition |
| Extract.RunPrimary | api/index.py:115-125 | `video` is None exactly when no link is a video; otherwise it is the href of the first video link |
| Extract.RunAudio | api/index.py:118-119 | `audio` is None exactly when no link is audio; otherwise it is the href of the last audio link |
| Extract.RunSlidesMembers | api/index.py:120-123 | the slide list holds exactly the slide-classified hrefs |
| Extract.RunSlidesOrder | api/index.py:120-123 | the slide list is in first-seen order |
| Extract.RunSlides | api/index.py:120-123 | both slide facts together |
| Extract.KindOfLast | api/index.py:115-123 | `type` after the last link is that link's tag if it is an event, otherwise the type before it |
| Extract.RunKindUnknown | api/index.py:106-123 | `type` stays `unknown` exactly when no link is a video or a new slide |
| Extract.RunKindLast | api/index.py:115-123 | otherwise `type` is the tag of the last video or new-slide link |
| Extract.SlideAfterVideo | api/index.py:115-125 | a slide after a video gives `type` `slide` while `video` is set |
| Extract.ApiMissingHrefVideo | api/index.py:114-125 | an anchor without href whose markup says `video_mp4`, with no video before it, makes `video` the empty string |
| Extract.AppLinks | app.py:78-81 | app.py's loop sees only anchors with a non-empty href |
| Extract.AppSkipsEmptyHrefs | app.py:79-81 | an anchor with a missing or empty href has no effect on any field, wherever it stands |
| Extract.AppLinksOfKept | app.py:78-94 | app.py's links are api/index.py's links of the anchors app.py keeps |
| Extract.AppMatchesApiOnKept | app.py:78-98 | app.py's result equals api/index.py's result on the kept anchors |
| Extract.AppLinksNonEmpty | app.py:79-98 | app.py never reports an empty video, audio or slide link |
| Extract.KeptWhenNoneSkipped | app.py:79-81 | with no missing or empty href, app.py keeps every anchor |
| Extract.Author | api/index.py:106-110 | without a heading the author is `MaropppUser`; otherwise it is the heading's text with surrounding whitespace removed |
| TikTok.DownloadApi | api/index.py:91-100 | api/index.py posts to the provider exactly when the body-first url is usable, sending that url |
| TikTok.DownloadApp | app.py:45-60 | app.py posts to the provider exactly when the query-first url is usable, sending that url |
| TikTok.ScanDescribes | api/index.py:112-125 | the loop's fields mean what the positional description says for any links |
| TikTok.DownloadApiOutcomes | api/index.py:89-127 | 400 `URL required`; 400 `Gagal menghubungi provider` for a non-200 provider; otherwise a 200 with platform `tiktok`, no cover, the author, and media fields described by every anchor |
| TikTok.DownloadAppOutcomes | app.py:43-103 | 400 `URL parameter required`; 400 `Provider unavailable`; otherwise a 200 with media fields described by the anchors with an href, none of them empty |
| TikTok.VersionsAgree | app.py:45-98 | with one url source and every href present, both files send the same request parameters and reply with the same status and media fields |
| TikTok.BodyWithoutUrlRejectedByApi | api/index.py:91-95 | a truthy body without `url`, or with an empty one, makes api/index.py reject a request whose query names a url, while app.py posts it |
| Music.BaseUrl | app.py:134 | the base is a prefix of the host URL with no trailing slash, and everything cut from the host URL is `/` |
| Music.MusicSearch | app.py:110-123 | the upstream is called exactly when `q` is usable |
| Music.MusicSearchOutcomes | app.py:110-131 | 400 without `q` and without a call; one details GET for `q`; 502 for any non-200 status; 404 for a missing or empty song list; 200 otherwise |
| Music.DownloadLink | app.py:142-147 | the link starts with the route head `<base>/mp3down/download?url=`, and its length is the head's plus the two key texts plus the three raw values, so nothing is escaped or dropped |
| Music.MusicSearchRecords | app.py:134-155 | each record keeps its song's title, artist, duration and thumbnail, and links into this host's download route |
| Music.DownloadLinkReadsBack | app.py:142-147 | as written, the link gives the download route the song's url, title and artist intact when none of them holds `&`, `#`, `%` or `+` |
| Music.TitleCutAtAmpersand | app.py:142-147 | as written, a title `a&b` is read back by the download route as `a` |
| Music.TitleWithAmpersandLost | app.py:142-147 | the song titled `A&B` is read back from its own link as `A` |
| Music.EncodedLinkReadsBack | app.py:142-147 | the escaped link gives the download route every song's url, title and artist intact |
| QueryString.Escape | app.py:142-147 | an escaped value contains no `&` and no `#` |
| QueryString.UnescapeEscape | app.py:164-166 | decoding undoes escaping for every string |
| QueryString.UnescapePlain | app.py:164-166 | a value without `%` or `+` decodes to itself |
| QueryString.DownloadArgs | app.py:164-166 | a link shaped `prefix?url=x&title=y&artist=z` reads back the decoded values when no value holds `&` or `#` |
| QueryString.AmpersandCutsTitle | app.py:164-165 | an unescaped `&` inside the title value ends it |
| Music.DownloadFilename | app.py:189-191 | the served name is free of reserved characters, ends in `.mp3`, and equals stripping the reserved characters from `title - artist` and adding `.mp3` |
| Music.DownloadFilenameSafe | app.py:189-191 | the served name is free of line breaks exactly when the title and the artist are |
| Music.MusicHeadersSafe | app.py:193-196 | both response headers are free of line breaks exactly when the title and the artist are |
| Music.DownloadFilenameKeepsClean | app.py:189-191 | a clean title and artist are kept verbatim as `title - artist.mp3` |
| Music.FilenameReadsBack | app.py:189-195 | the served name reads back intact from the Content-Disposition header |
| Music.MusicDownload | app.py:164-206 | a missing or empty url gives 400 without any upstream call; otherwise there are two calls, then a 200, or a 500 when the title or the artist holds a line break |
| Music.DownloadReply | app.py:193-206 | the reply streams exactly when the title and the artist are free of line breaks, with status 200; otherwise it is Werkzeug's 500 |
| Music.MusicDownloadCalls | app.py:171-187 | for an accepted url: the check GET, then the streamed download POST, both carrying the url and app.py's music headers |
| Music.MusicDownloadAccepted | app.py:189-206 | the reply streams exactly when the title and the artist have no line break, and is otherwise Werkzeug's 500; a streamed body is exactly the relayed upstream chunks (`Relay.Forwarded`), chunk for chunk |
| Music.MusicDownloadName | app.py:165-195 | a streamed reply has two headers, `Content-Type: audio/mpeg` and a `Content-Disposition` naming `title - artist.mp3`, from the sanitized title and artist, or their `Unknown Title`/`Unknown Artist` defaults |
| Music.SearchThenDownload | app.py:142-191 | following a result link for a link-safe song posts that song's url; the reply streams exactly when its title and artist have no line break, and then is `audio/mpeg` with a `Content-Disposition` naming the file after them, over the relayed upstream chunks |
| Music.EncodedSearchThenDownload | app.py:142-191 | with the escaped link the same holds for every song with a non-empty url |

## Left out

- Flask routing, CORS, the `home` routes and the `debug` runner: framework glue with no logic of the core.
- The HTTP client: requests and sessions are modelled as `Call` values the handler returns. Cookies, redirects, timeouts and TLS are not modelled. Upstream answers are inputs.
- The `except Exception` → 500 wrappers: exceptions from the network, a non-JSON body (`response.json()`), or a JSON value that is not a string are not modelled. The one exception that is modelled is Werkzeug's refusal of a header value with a line break (`Upstream.Respond`).
- A url that `requests` cannot parse (no scheme, say) raises before any response and gives a 500. The model treats every call of an accepted url as made and answered.
- Header characters outside Latin-1 are refused by the WSGI server when it writes the response, outside the handler. The model does not encode header values.
- The 500 message text `Upstream.NewlineRefused` is Werkzeug 3's wording; older Werkzeug versions word the refusal differently.
- BeautifulSoup: a page is given as its anchors in document order, each with its serialized markup and optional href, and the text of its first `<h2>`.
- The clock: api/index.py's `download_<seconds>` default file name is a parameter of `Stream.StreamContent`.
- The stream's lifecycle (`stream_with_context`, lazy iteration, a client that disconnects): the relay is a function on the whole chunk sequence. The 4096-byte read size appears only as `Relay.ChunkSize`, the bound `Relay.ForwardedBounded` is meant for.
- api/index.py's `music_search` and `get_link` routes are not modelled; the music routes modelled are app.py's. api/index.py's `music_search` returns the raw song url instead of a download link and has no upstream status check. `get_link` streams under a clock-based name through the same `generate()` that `Relay` models.
- JSON bodies are string-to-string maps. A list body, nested values and key order are not modelled.
- The link round-trip lemmas of `Music` require a host URL without `?`; Flask's `host_url` is only scheme, host and root path, so this matches every real request.
- QueryString.Unescape: `%HH` decodes to the single character with that code, and UTF-8 sequences are not reassembled. Malformed escapes are kept as is, and repeated keys keep the first value. This is the subset needed for the link round trip.
- The fixed browser-like header sets are carried as constant data; no property is stated about their contents, and calls refer to them through `Profile` (file and provider).

## Findings

| source | as written | input that shows it | evidently intended | confidence | as-written member | corrected member |
|---|---|---|---|---|---|---|
| app.py:142-147 | `download_url` puts the raw url, title and artist into the query string with no URL encoding | a song titled `A&B`: the download route reads its title as `A`, so the file is served as `A - <artist>.mp3` | each value escaped (`quote`/`urlencode`) so the download route reads back exactly the song's url, title and artist | not executed | Music.TitleWithAmpersandLost | Music.EncodedLinkReadsBack |

=== FILE: extract.dfy ===
/** The anchor classifier of `tiktok_download`. The HTML parser is outside the
    model: a page is the sequence of its anchors in document order, each with
    its serialized markup and its optional `href`. Both servers run the same
    classification step; they differ only in how a missing or empty `href` is treated. */
module Extract {
  import opened Options
  import opened Text
  import opened Seqs

  /** One `<a>` element: `str(a)` and `a.get('href')`. */
  datatype Anchor = Anchor(markup: string, href: Option<string>)

  /** An anchor as the classification step sees it, `href` already defaulted. */
  datatype Link = Link(markup: string, href: string)

  /** Video test: the markup mentions `video_mp4`, or the href is a no-watermark `.mp4`. */
  predicate IsVideoLink(l: Link) {
    Contains(l.markup, "video_mp4") || (Contains(l.href, "nwm") && Contains(l.href, ".mp4"))
  }

  predicate IsAudioHref(h: string) {
    Contains(h, ".mp3")
  }

  predicate IsSlideHref(h: string) {
    Contains(h, "slide") || Contains(h, "image") || Contains(h, ".jpg")
  }

  /** The branch of the `if/elif/elif` chain an anchor takes. */
  datatype Bucket = VideoBucket | AudioBucket | SlideBucket | NoBucket

  /** Priority video > audio > slide: each anchor lands in at most one bucket,
      and a lower bucket only gets anchors every higher test rejected. */
  function Classify(l: Link): (b: Bucket)
    ensures b == VideoBucket <==> IsVideoLink(l)
    ensures b == AudioBucket <==> !IsVideoLink(l) && IsAudioHref(l.href)
    ensures b == SlideBucket <==> !IsVideoLink(l) && !IsAudioHref(l.href) && IsSlideHref(l.href)
    ensures b == NoBucket <==> !IsVideoLink(l) && !IsAudioHref(l.href) && !IsSlideHref(l.href)
  {
    if IsVideoLink(l) then VideoBucket
    else if IsAudioHref(l.href) then AudioBucket
    else if IsSlideHref(l.href) then SlideBucket
    else NoBucket
  }

  /** The `type` field of the result. */
  datatype MediaType = Unknown | Video | Slide {
    function Tag(): string {
      match this
      case Unknown => "unknown"
      case Video => "video"
      case Slide => "slide"
    }
  }

  /** The loop's state: `type`, the video candidate list, `audio` and `slides`. */
  datatype Scan = Scan(kind: MediaType, videos: seq<string>, audio: Option<string>, slides: seq<string>) {
    /** The `video` field: the first candidate, if any. */
    function Primary(): Option<string> {
      if videos == [] then None else Some(videos[0])
    }
  }

  const Initial := Scan(Unknown, [], None, [])

  /** One iteration of the loop body. */
  function Step(s: Scan, l: Link): Scan {
    match Classify(l)
    case VideoBucket => s.(videos := s.videos + [l.href], kind := Video)
    case AudioBucket => s.(audio := Some(l.href))
    case SlideBucket =>
      if l.href in s.slides then s else s.(slides := s.slides + [l.href], kind := Slide)
    case NoBucket => s
  }

  /** A link touches at most one of the video list, `audio` and the slide
      list; the lists only grow, by at most its href; `type` never returns to
      `unknown`. */
  lemma StepFrame(s: Scan, l: Link)
    ensures var r := Step(s, l);
      && IsPrefix(s.videos, r.videos) && |r.videos| <= |s.videos| + 1
      && IsPrefix(s.slides, r.slides) && |r.slides| <= |s.slides| + 1
      && (r.videos != s.videos ==> r.videos == s.videos + [l.href] && r.audio == s.audio && r.slides == s.slides)
      && (r.slides != s.slides ==> r.slides == s.slides + [l.href] && r.audio == s.audio)
      && (r.audio == s.audio || r.audio == Some(l.href))
      && (r.kind != s.kind ==> r.kind != Unknown)
  {
    var r := Step(s, l);
    assert (s.videos + [l.href])[..|s.videos|] == s.videos;
    assert (s.slides + [l.href])[..|s.slides|] == s.slides;
  }

  /** The whole loop over the links in document order. The type is `unknown`
      exactly when nothing was appended to the video list or the slide list. */
  function Run(links: seq<Link>): (s: Scan)
    ensures NoDuplicates(s.slides)
    ensures s.kind == Unknown <==> s.videos == [] && s.slides == []
    ensures s.kind == Video ==> s.videos != []
    ensures s.kind == Slide ==> s.slides != []
    decreases |links|
  {
    if links == [] then Initial
    else
      var s := Run(links[..|links| - 1]);
      var l := links[|links| - 1];
      assert l.href !in s.slides ==> NoDuplicates(s.slides + [l.href]);
      Step(s, l)
  }

  // ---------------------------------------------------------------------------
  // Positional reading of the loop: what happens at link i of the document.

  ghost predicate VideoAt(links: seq<Link>, i: int) {
    0 <= i < |links| && Classify(links[i]) == VideoBucket
  }

  ghost predicate AudioAt(links: seq<Link>, i: int) {
    0 <= i < |links| && Classify(links[i]) == AudioBucket
  }

  ghost predicate SlideAt(links: seq<Link>, i: int) {
    0 <= i < |links| && Classify(links[i]) == SlideBucket
  }

  /** Some slide-classified link before position `i` has href `h`. */
  ghost predicate SeenSlideBefore(links: seq<Link>, i: int, h: string) {
    exists j :: 0 <= j < i && SlideAt(links, j) && links[j].href == h
  }

  /** Some slide-classified link anywhere has href `h`. */
  ghost predicate SlideHref(links: seq<Link>, h: string) {
    SeenSlideBefore(links, |links|, h)
  }

  /** Link i inserts a slide: slide-classified and its href not seen as a slide before. */
  ghost predicate NewSlideAt(links: seq<Link>, i: int) {
    SlideAt(links, i) && !SeenSlideBefore(links, i, links[i].href)
  }

  /** Link i sets `type`: a video append or a new slide insertion. */
  ghost predicate EventAt(links: seq<Link>, i: int) {
    VideoAt(links, i) || NewSlideAt(links, i)
  }

  ghost predicate FirstVideoAt(links: seq<Link>, i: int) {
    VideoAt(links, i) && forall j :: 0 <= j < i ==> !VideoAt(links, j)
  }

  ghost predicate LastAudioAt(links: seq<Link>, i: int) {
    AudioAt(links, i) && forall j :: i < j < |links| ==> !AudioAt(links, j)
  }

  ghost predicate LastEventAt(links: seq<Link>, i: int) {
    EventAt(links, i) && forall j :: i < j < |links| ==> !EventAt(links, j)
  }

  /** The tag an event sets. */
  function EventType(l: Link): MediaType {
    if IsVideoLink(l) then Video else Slide
  }

  /** Every occurrence of `b` as a slide is preceded by an occurrence of `a` as a slide. */
  ghost predicate SlideSeenFirst(links: seq<Link>, a: string, b: string) {
    forall i :: SlideAt(links, i) && links[i].href == b ==> SeenSlideBefore(links, i, a)
  }

  /** The slide list is in first-seen order. */
  ghost predicate FirstSeenOrder(links: seq<Link>, slides: seq<string>) {
    forall p, q :: 0 <= p < q < |slides| ==> SlideSeenFirst(links, slides[p], slides[q])
  }

  /** Positions before the last are judged the same in a prefix. */
  lemma PrefixPositions(links: seq<Link>)
    requires links != []
    ensures forall i :: 0 <= i < |links| - 1 ==> links[..|links| - 1][i] == links[i]
    ensures forall i :: VideoAt(links[..|links| - 1], i) <==> VideoAt(links, i) && i < |links| - 1
    ensures forall i :: AudioAt(links[..|links| - 1], i) <==> AudioAt(links, i) && i < |links| - 1
    ensures forall i :: SlideAt(links[..|links| - 1], i) <==> SlideAt(links, i) && i < |links| - 1
    ensures forall i, h :: 0 <= i < |links| ==>
      (SeenSlideBefore(links[..|links| - 1], i, h) <==> SeenSlideBefore(links, i, h))
  {
    var p := links[..|links| - 1];
    forall i, h | 0 <= i < |links|
      ensures SeenSlideBefore(p, i, h) <==> SeenSlideBefore(links, i, h)
    {
      if SeenSlideBefore(links, i, h) {
        var j :| 0 <= j < i && SlideAt(links, j) && links[j].href == h;
        assert SlideAt(p, j);
      }
    }
  }

  // ---------------------------------------------------------------------------
  // The video candidate list and the primary video.

  /** Reference definition: the hrefs of the video-classified links, in order. */
  function VideoHrefs(links: seq<Link>): seq<string>
    decreases |links|
  {
    if links == [] then []
    else (if IsVideoLink(links[0]) then [links[0].href] else []) + VideoHrefs(links[1..])
  }

  lemma {:induction false} VideoHrefsSnoc(links: seq<Link>, x: Link)
    ensures VideoHrefs(links + [x]) == VideoHrefs(links) + (if IsVideoLink(x) then [x.href] else [])
    decreases |links|
  {
    if links == [] {
      assert links + [x] == [x];
    } else {
      var h := if IsVideoLink(links[0]) then [links[0].href] else [];
      var e := if IsVideoLink(x) then [x.href] else [];
      assert (links + [x])[0] == links[0];
      assert (links + [x])[1..] == links[1..] + [x];
      VideoHrefsSnoc(links[1..], x);
      calc {
        VideoHrefs(links + [x]);
        h + VideoHrefs(links[1..] + [x]);
        h + (VideoHrefs(links[1..]) + e);
        (h + VideoHrefs(links[1..])) + e;
      }
    }
  }

  /** The candidate list holds every video href, duplicates included, in document order. */
  lemma {:induction false} RunVideos(links: seq<Link>)
    ensures Run(links).videos == VideoHrefs(links)
    decreases |links|
  {
    if links != [] {
      var p := links[..|links| - 1];
      var x := links[|links| - 1];
      RunVideos(p);
      assert p + [x] == links;
      VideoHrefsSnoc(p, x);
    }
  }

  /** The `video` field is the href of the first video-classified link, or
      None exactly when no link is video-classified. */
  lemma {:induction false} RunPrimary(links: seq<Link>)
    ensures Run(links).Primary() == None <==> forall i :: !VideoAt(links, i)
    ensures Run(links).Primary().Some? ==>
      exists i :: FirstVideoAt(links, i) && links[i].href == Run(links).Primary().value
    decreases |links|
  {
    if links != [] {
      var n := |links|;
      var p := links[..n - 1];
      var x := links[n - 1];
      RunPrimary(p);
      PrefixPositions(links);
      var s := Run(p);
      if s.videos == [] {
        if IsVideoLink(x) {
          assert VideoAt(links, n - 1);
          assert FirstVideoAt(links, n - 1);
        } else {
          assert !VideoAt(links, n - 1);
        }
      } else {
        var i :| FirstVideoAt(p, i) && p[i].href == s.Primary().value;
        assert FirstVideoAt(links, i);
      }
    }
  }

  // ---------------------------------------------------------------------------
  // The audio slot.

  /** The `audio` field is the href of the last audio-classified link, or None
      exactly when no link is audio-classified. */
  lemma {:induction false} RunAudio(links: seq<Link>)
    ensures Run(links).audio == None <==> forall i :: !AudioAt(links, i)
    ensures Run(links).audio.Some? ==>
      exists i :: LastAudioAt(links, i) && links[i].href == Run(links).audio.value
    decreases |links|
  {
    if links != [] {
      var n := |links|;
      var p := links[..n - 1];
      var x := links[n - 1];
      RunAudio(p);
      PrefixPositions(links);
      var s := Run(p);
      assert Run(links).audio == if Classify(x) == AudioBucket then Some(x.href) else s.audio;
      if Classify(x) == AudioBucket {
        assert AudioAt(links, n - 1);
        assert LastAudioAt(links, n - 1);
      } else {
        assert !AudioAt(links, n - 1);
        if s.audio.Some? {
          var i :| LastAudioAt(p, i) && p[i].href == s.audio.value;
          assert LastAudioAt(links, i);
        }
      }
    }
  }

  // ---------------------------------------------------------------------------
  // The slide list.

  /** The slide hrefs of a document are those of all but its last link, plus
      the last link's href when it is a slide. */
  lemma SlideHrefSnoc(links: seq<Link>)
    requires links != []
    ensures forall h :: SlideHref(links, h) <==>
      SlideHref(links[..|links| - 1], h) || (SlideAt(links, |links| - 1) && h == links[|links| - 1].href)
  {
    var n := |links|;
    var p := links[..n - 1];
    var x := links[n - 1];
    PrefixPositions(links);
    forall h | SlideHref(links, h)
      ensures SlideHref(p, h) || (SlideAt(links, n - 1) && h == x.href)
    {
      var j :| 0 <= j < n && SlideAt(links, j) && links[j].href == h;
      if j < n - 1 {
        assert SlideAt(p, j);
      }
    }
    forall h | SlideHref(p, h)
      ensures SlideHref(links, h)
    {
      var j :| 0 <= j < n - 1 && SlideAt(p, j) && p[j].href == h;
      assert SlideAt(links, j);
    }
    if SlideAt(links, n - 1) {
      assert SeenSlideBefore(links, n, x.href);
    }
  }

  /** The slide list holds exactly the slide-classified hrefs. */
  lemma {:induction false} RunSlidesMembers(links: seq<Link>)
    ensures forall h :: h in Run(links).slides <==> SlideHref(links, h)
    decreases |links|
  {
    if links != [] {
      RunSlidesMembers(links[..|links| - 1]);
      SlideHrefSnoc(links);
    }
  }

  /** Each slide href is listed in the order of its first appearance. */
  lemma {:induction false} RunSlidesOrder(links: seq<Link>)
    ensures FirstSeenOrder(links, Run(links).slides)
    decreases |links|
  {
    if links != [] {
      var n := |links|;
      var p := links[..n - 1];
      var x := links[n - 1];
      RunSlidesOrder(p);
      RunSlidesMembers(p);
      PrefixPositions(links);
      var s := Run(p);
      var t := Run(links).slides;
      // every old slide already occurs as a slide before the last link
      assert forall a :: a in s.slides ==> SeenSlideBefore(links, n - 1, a) by {
        forall a | a in s.slides
          ensures SeenSlideBefore(links, n - 1, a)
        {
          assert SlideHref(p, a);
        }
      }
      assert t == s.slides || t == s.slides + [x.href];
      forall pp, qq | 0 <= pp < qq < |t|
        ensures SlideSeenFirst(links, t[pp], t[qq])
      {
        forall i | SlideAt(links, i) && links[i].href == t[qq]
          ensures SeenSlideBefore(links, i, t[pp])
        {
          assert t[pp] in s.slides;
          if qq < |s.slides| && i < n - 1 {
            assert SlideAt(p, i);
            assert SlideSeenFirst(p, s.slides[pp], s.slides[qq]);
            assert SeenSlideBefore(p, i, t[pp]);
          } else if qq == |s.slides| {
            assert t[qq] == x.href;
            assert forall j :: SlideAt(p, j) ==> p[j].href != x.href by {
              forall j | SlideAt(p, j)
                ensures p[j].href != x.href
              {
                assert SeenSlideBefore(p, |p|, p[j].href);
              }
            }
            assert i == n - 1;
          }
        }
      }
    }
  }

  /** The slide list holds exactly the slide-classified hrefs, each once, in
      the order of their first appearance. */
  lemma RunSlides(links: seq<Link>)
    ensures forall h :: h in Run(links).slides <==> SlideHref(links, h)
    ensures FirstSeenOrder(links, Run(links).slides)
  {
    RunSlidesMembers(links);
    RunSlidesOrder(links);
  }

  // ---------------------------------------------------------------------------
  // The type tag.

  /** Positions before the last are events in the prefix exactly when they are in the whole. */
  lemma EventsOfPrefix(links: seq<Link>)
    requires links != []
    ensures forall i :: EventAt(links[..|links| - 1], i) <==> EventAt(links, i) && i < |links| - 1
  {
    PrefixPositions(links);
  }

  /** The last link inserts a slide exactly when the step appends its href. */
  lemma NewSlideAtLast(links: seq<Link>)
    requires links != []
    ensures NewSlideAt(links, |links| - 1) <==>
      Classify(links[|links| - 1]) == SlideBucket && links[|links| - 1].href !in Run(links[..|links| - 1]).slides
  {
    var p := links[..|links| - 1];
    RunSlides(p);
    PrefixPositions(links);
    assert SeenSlideBefore(links, |links| - 1, links[|links| - 1].href) <==> SlideHref(p, links[|links| - 1].href);
  }

  /** One step sets the type exactly on a video append or a new slide insertion. */
  lemma StepKind(s: Scan, x: Link)
    ensures Step(s, x).kind ==
      if Classify(x) == VideoBucket || (Classify(x) == SlideBucket && x.href !in s.slides)
      then EventType(x) else s.kind
  {
  }

  /** The type after the last link: its tag if it is an event, the prefix's type otherwise. */
  lemma KindOfLast(links: seq<Link>)
    requires links != []
    ensures Run(links).kind ==
      if EventAt(links, |links| - 1) then EventType(links[|links| - 1]) else Run(links[..|links| - 1]).kind
  {
    var p := links[..|links| - 1];
    var x := links[|links| - 1];
    NewSlideAtLast(links);
    assert Run(links) == Step(Run(p), x);
    StepKind(Run(p), x);
  }

  /** `type` is `unknown` exactly when no link was a video append or a new slide insertion. */
  lemma {:induction false} RunKindUnknown(links: seq<Link>)
    ensures Run(links).kind == Unknown <==> forall i :: !EventAt(links, i)
    decreases |links|
  {
    if links != [] {
      var n := |links|;
      var p := links[..n - 1];
      RunKindUnknown(p);
      KindOfLast(links);
      EventsOfPrefix(links);
      if EventAt(links, n - 1) {
        assert EventType(links[n - 1]) != Unknown;
      } else {
        if forall i :: !EventAt(p, i) {
          forall i | 0 <= i < n - 1
            ensures !EventAt(links, i)
          {
            assert !EventAt(p, i);
          }
          assert forall i :: !EventAt(links, i);
        } else {
          var i :| EventAt(p, i);
          assert EventAt(links, i);
        }
      }
    }
  }

  /** Otherwise `type` is the tag of the last video append or new slide insertion. */
  lemma {:induction false} RunKindLast(links: seq<Link>, i: int)
    requires LastEventAt(links, i)
    ensures Run(links).kind == EventType(links[i])
    decreases |links|
  {
    var n := |links|;
    KindOfLast(links);
    if i < n - 1 {
      EventsOfPrefix(links);
      var p := links[..n - 1];
      assert !EventAt(links, n - 1);
      forall j | i < j < |p|
        ensures !EventAt(p, j)
      {
        assert !EventAt(links, j);
      }
      assert LastEventAt(p, i);
      RunKindLast(links[..n - 1], i);
    }
  }

  // ---------------------------------------------------------------------------
  // The two servers' views of the anchors.

  /** api/index.py: `a.get('href', '')`, every anchor is classified. */
  function ApiLink(a: Anchor): Link {
    Link(a.markup, a.href.GetOr(""))
  }

  function ApiLinks(anchors: seq<Anchor>): (links: seq<Link>)
    ensures |links| == |anchors|
    ensures forall i :: 0 <= i < |anchors| ==> links[i] == ApiLink(anchors[i])
  {
    seq(|anchors|, i requires 0 <= i < |anchors| => ApiLink(anchors[i]))
  }

  /** app.py: `if not href: continue` skips a missing or empty href. */
  predicate Skipped(a: Anchor) {
    a.href == None || a.href == Some("")
  }

  /** app.py's loop sees only the anchors with a non-empty href. */
  function AppLinks(anchors: seq<Anchor>): (links: seq<Link>)
    ensures |links| <= |anchors|
    ensures forall i :: 0 <= i < |links| ==> links[i].href != ""
    decreases |anchors|
  {
    if anchors == [] then []
    else
      var a := anchors[0];
      (if Skipped(a) then [] else [Link(a.markup, a.href.value)]) + AppLinks(anchors[1..])
  }

  /** The anchors app.py does not skip, in document order. */
  function Kept(anchors: seq<Anchor>): seq<Anchor>
    decreases |anchors|
  {
    if anchors == [] then []
    else (if Skipped(anchors[0]) then [] else [anchors[0]]) + Kept(anchors[1..])
  }

  /** With no anchor skipped, app.py keeps them all. */
  lemma {:induction false} KeptWhenNoneSkipped(anchors: seq<Anchor>)
    requires forall k :: 0 <= k < |anchors| ==> !Skipped(anchors[k])
    ensures Kept(anchors) == anchors
    decreases |anchors|
  {
    if anchors != [] {
      KeptWhenNoneSkipped(anchors[1..]);
      assert [anchors[0]] + anchors[1..] == anchors;
    }
  }

  /** The classification loop of api/index.py. */
  function ScanApi(anchors: seq<Anchor>): Scan {
    Run(ApiLinks(anchors))
  }

  /** The classification loop of app.py. */
  function ScanApp(anchors: seq<Anchor>): Scan {
    Run(AppLinks(anchors))
  }

  lemma {:induction false} AppLinksAppend(a: seq<Anchor>, b: seq<Anchor>)
    ensures AppLinks(a + b) == AppLinks(a) + AppLinks(b)
    decreases |a|
  {
    if a == [] {
      assert a + b == b;
    } else {
      assert (a + b)[1..] == a[1..] + b;
      AppLinksAppend(a[1..], b);
    }
  }

  /** In app.py an anchor without a usable href has no effect on any field,
      wherever it stands in the document. */
  lemma AppSkipsEmptyHrefs(a: seq<Anchor>, x: Anchor, b: seq<Anchor>)
    requires Skipped(x)
    ensures ScanApp(a + [x] + b) == ScanApp(a + b)
  {
    AppLinksAppend(a + [x], b);
    AppLinksAppend(a, [x]);
    AppLinksAppend(a, b);
    assert [x][1..] == [];
    assert AppLinks([x]) == [];
    assert AppLinks(a + [x]) == AppLinks(a);
  }

  lemma ApiLinksCons(a: Anchor, rest: seq<Anchor>)
    ensures ApiLinks([a] + rest) == [ApiLink(a)] + ApiLinks(rest)
  {
  }

  /** app.py's links are api/index.py's links of the kept anchors. */
  lemma {:induction false} AppLinksOfKept(anchors: seq<Anchor>)
    ensures AppLinks(anchors) == ApiLinks(Kept(anchors))
    decreases |anchors|
  {
    if anchors != [] {
      AppLinksOfKept(anchors[1..]);
      var a := anchors[0];
      if !Skipped(a) {
        ApiLinksCons(a, Kept(anchors[1..]));
      }
    }
  }

  /** app.py classifies its kept anchors exactly as api/index.py would: the
      two loops differ only in the anchors app.py skips. */
  lemma AppMatchesApiOnKept(anchors: seq<Anchor>)
    ensures ScanApp(anchors) == ScanApi(Kept(anchors))
  {
    AppLinksOfKept(anchors);
  }

  /** app.py never reports an empty link: the video, the audio and every slide are non-empty. */
  lemma AppLinksNonEmpty(anchors: seq<Anchor>)
    ensures ScanApp(anchors).Primary() != Some("")
    ensures ScanApp(anchors).audio != Some("")
    ensures "" !in ScanApp(anchors).slides
  {
    var links := AppLinks(anchors);
    RunPrimary(links);
    RunAudio(links);
    RunSlides(links);
    forall h | SlideHref(links, h)
      ensures h != ""
    {
      var j :| 0 <= j < |links| && SlideAt(links, j) && links[j].href == h;
    }
  }

  /** In api/index.py a first video anchor recognised by its markup alone
      but lacking an href makes the `video` field the empty string. */
  lemma ApiMissingHrefVideo(anchors: seq<Anchor>, i: int)
    requires 0 <= i < |anchors|
    requires anchors[i].href == None && Contains(anchors[i].markup, "video_mp4")
    requires forall j :: 0 <= j < i ==> !IsVideoLink(ApiLink(anchors[j]))
    ensures ScanApi(anchors).Primary() == Some("")
  {
    var links := ApiLinks(anchors);
    RunPrimary(links);
    assert VideoAt(links, i);
    var k :| FirstVideoAt(links, k) && links[k].href == Run(links).Primary().value;
    assert !VideoAt(links, k) || k >= i;
  }

  /** The type tag is not "video whenever a video was found": a slide after
      a video leaves `type` at `slide` while `video` is set. */
  lemma SlideAfterVideo()
    ensures ScanApi([Anchor("video_mp4", Some("v")), Anchor("", Some(".jpg"))]).kind == Slide
    ensures ScanApi([Anchor("video_mp4", Some("v")), Anchor("", Some(".jpg"))]).Primary() == Some("v")
  {
    var anchors := [Anchor("video_mp4", Some("v")), Anchor("", Some(".jpg"))];
    var links := ApiLinks(anchors);
    assert links == [Link("video_mp4", "v"), Link("", ".jpg")];
    assert Contains("video_mp4", "video_mp4");
    assert "jpg"[1..] == "pg";
    assert !Contains("pg", "nwm");
    assert "jpg"[..3] != "nwm" by { assert "jpg"[..3][0] == 'j'; }
    assert !Contains("jpg", "nwm");
    assert ".jpg"[..3] != "nwm" by { assert ".jpg"[..3][0] == '.'; }
    assert !Contains(".jpg", "nwm");
    assert ".jpg"[..4] != ".mp3" by { assert ".jpg"[..4][1] == 'j'; }
    assert !Contains("jpg", ".mp3");
    assert !Contains(".jpg", ".mp3");
    assert Classify(links[1]) == SlideBucket;
    assert links[..1] == [Link("video_mp4", "v")];
    assert Run(links[..1]) == Scan(Video, ["v"], None, []);
  }

  /** Name shown when the page has no `<h2>`. */
  const DefaultAuthor: string := "MaropppUser"

  /** `author`: the stripped text of the first `<h2>`, or the placeholder. */
  function Author(heading: Option<string>): (r: string)
    ensures heading == None ==> r == DefaultAuthor
    ensures heading.Some? ==> r == [] || (!IsSpace(r[0]) && !IsSpace(r[|r| - 1]))
    ensures heading.Some? ==> exists lead :: WhitespaceFramed(r, heading.value, lead)
  {
    if heading.Some? then Strip(heading.value) else DefaultAuthor
  }
}

=== FILE: music.dfy ===
/** app.py's music routes: `music_search` projects the provider's song list to
    result records carrying an internal download link, and `music_download`
    streams the provider's file under a `title - artist.mp3` name. */
module Music {
  import opened Options
  import opened Text
  import opened Seqs
  import opened Params
  import opened Upstream
  import opened Relay
  import opened Sanitize
  import opened QueryString

  const SongDetailsEndpoint: string := "https://spotdown.org/api/song-details"
  const CheckEndpoint: string := "https://spotdown.org/api/check-direct-download"
  const DownloadEndpoint: string := "https://spotdown.org/api/download"

  /** Path of the internal download route the result links point at. */
  const DownloadRoute: string := "/mp3down/download"

  const DefaultTitle: string := "Unknown Title"
  const DefaultArtist: string := "Unknown Artist"

  /** One entry of the provider's `songs` list; a missing key is None. */
  datatype Song = Song(title: Option<string>, artist: Option<string>, duration: Option<string>,
                       thumbnail: Option<string>, url: Option<string>)

  /** The provider's answer: HTTP status and the `songs` value (None when the
      key is absent or null). */
  datatype SearchAnswer = SearchAnswer(status: int, songs: Option<seq<Song>>)

  /** One result record of the search route. */
  datatype Track = Track(title: Option<string>, artist: Option<string>, duration: Option<string>,
                         thumbnail: Option<string>, downloadUrl: string)

  /** The search route's reply: an error message, or the result records. */
  datatype SearchReply = MissingQuery(message: string) | ProviderUnavailable(message: string)
                       | NoSongs(message: string) | Results(tracks: seq<Track>) {
    function Status(): int {
      match this
      case MissingQuery(_) => 400
      case ProviderUnavailable(_) => 502
      case NoSongs(_) => 404
      case Results(_) => 200
    }
  }

  /** How an f-string renders a value that may be missing. */
  function Render(v: Option<string>): string {
    match v
    case Some(s) => s
    case None => "None"
  }

  /** `request.host_url.rstrip('/')`. */
  function BaseUrl(hostUrl: string): (b: string)
    ensures IsPrefix(b, hostUrl)
    ensures forall k :: |b| <= k < |hostUrl| ==> hostUrl[k] == '/'
    ensures b == [] || b[|b| - 1] != '/'
  {
    RStripChar(hostUrl, '/')
  }

  /** Everything of a result link before the song's url. */
  function LinkHead(base: string): string {
    base + DownloadRoute + "?url="
  }

  /** The internal download link, built by plain concatenation: it starts with
      the route's head, and the three values go in unescaped, so the link is
      exactly as long as the head, the two separators and the raw values. */
  function DownloadLink(base: string, song: Song): (link: string)
    ensures IsPrefix(LinkHead(base), link)
    ensures |link| == |LinkHead(base)| + |"&title="| + |"&artist="|
                      + |Render(song.url)| + |Render(song.title)| + |Render(song.artist)|
  {
    HeadIsPrefix(LinkHead(base), Render(song.url), "&title=", Render(song.title), "&artist=", Render(song.artist));
    LinkHead(base) + Render(song.url) + "&title=" + Render(song.title) + "&artist=" + Render(song.artist)
  }

  lemma HeadIsPrefix<T>(p: seq<T>, a: seq<T>, b: seq<T>, c: seq<T>, d: seq<T>, e: seq<T>)
    ensures IsPrefix(p, p + a + b + c + d + e)
  {
    assert (p + a + b + c + d + e)[..|p|] == p;
  }

  function Project(base: string, song: Song): Track {
    Track(song.title, song.artist, song.duration, song.thumbnail, DownloadLink(base, song))
  }

  /** The `music_search` route; `answer` is what the song-details GET returns. */
  function MusicSearch(args: Args, hostUrl: string, answer: SearchAnswer): (e: Exchange<SearchReply>)
    ensures e.calls == [] <==> !Usable(Arg(args, "q"))
  {
    var q := Arg(args, "q");
    if !Usable(q) then Exchange([], MissingQuery("Parameter 'q' required"))
    else
      var call := Call(Get, SongDetailsEndpoint, Profile(AppVersion, MusicMeta), [("url", q.value)], false);
      if answer.status != 200 then Exchange([call], ProviderUnavailable("Provider unavailable"))
      else if answer.songs == None || answer.songs.value == [] then Exchange([call], NoSongs("No songs found"))
      else
        var songs, base := answer.songs.value, BaseUrl(hostUrl);
        Exchange([call], Results(seq(|songs|, k requires 0 <= k < |songs| => Project(base, songs[k]))))
  }

  /** The search route's outcomes, decided in order: 400 without a query and
      without any upstream call; 502 for any provider status but 200, whatever
      the body; 404 for a missing or empty song list; 200 otherwise. */
  lemma MusicSearchOutcomes(args: Args, hostUrl: string, answer: SearchAnswer)
    ensures var e := MusicSearch(args, hostUrl, answer);
      && (!Usable(Arg(args, "q")) ==> e.reply == MissingQuery("Parameter 'q' required") && e.calls == [])
      && (Usable(Arg(args, "q")) ==>
            e.calls == [Call(Get, SongDetailsEndpoint, Profile(AppVersion, MusicMeta), [("url", args["q"])], false)])
      && (Usable(Arg(args, "q")) && answer.status != 200 ==> e.reply == ProviderUnavailable("Provider unavailable"))
      && (Usable(Arg(args, "q")) && answer.status == 200 && (answer.songs.None? || answer.songs.value == [])
          ==> e.reply == NoSongs("No songs found"))
      && (Usable(Arg(args, "q")) && answer.status == 200 && answer.songs.Some? && answer.songs.value != []
          ==> e.reply.Status() == 200)
  {
    var e := MusicSearch(args, hostUrl, answer);
    if Usable(Arg(args, "q")) && answer.status == 200 && answer.songs.Some? && answer.songs.value != [] {
      var songs, base := answer.songs.value, BaseUrl(hostUrl);
      assert e.reply == Results(seq(|songs|, k requires 0 <= k < |songs| => Project(base, songs[k])));
    }
  }

  /** A successful search has one record per song, in order, keeping the
      song's fields, each with a link into the download route of this host. */
  lemma MusicSearchRecords(args: Args, hostUrl: string, answer: SearchAnswer)
    requires MusicSearch(args, hostUrl, answer).reply.Results?
    ensures var tracks := MusicSearch(args, hostUrl, answer).reply.tracks;
      && answer.songs.Some?
      && |tracks| == |answer.songs.value| > 0
      && forall k :: 0 <= k < |tracks| ==>
           var t, s := tracks[k], answer.songs.value[k];
           && t.title == s.title && t.artist == s.artist
           && t.duration == s.duration && t.thumbnail == s.thumbnail
           && t.downloadUrl == DownloadLink(BaseUrl(hostUrl), s)
           && IsPrefix(LinkHead(BaseUrl(hostUrl)), t.downloadUrl)
  {
  }

  /** A value that reads back unchanged from a plain concatenated link. */
  predicate LinkSafe(s: string) {
    '&' !in s && '#' !in s && '%' !in s && '+' !in s
  }

  lemma NoQuestionMarkInBase(hostUrl: string)
    requires '?' !in hostUrl
    ensures '?' !in BaseUrl(hostUrl) + DownloadRoute
  {
    var b := BaseUrl(hostUrl);
    assert forall i :: 0 <= i < |b| ==> b[i] == hostUrl[i];
  }

  /** As written, the link carries the song's url, title and artist to the
      download route intact when none of them holds `&`, `#`, `%` or `+`. */
  lemma DownloadLinkReadsBack(hostUrl: string, song: Song)
    requires '?' !in hostUrl
    requires LinkSafe(Render(song.url)) && LinkSafe(Render(song.title)) && LinkSafe(Render(song.artist))
    ensures var args := QueryArgs(DownloadLink(BaseUrl(hostUrl), song));
      && Arg(args, "url") == Some(Render(song.url))
      && Arg(args, "title") == Some(Render(song.title))
      && Arg(args, "artist") == Some(Render(song.artist))
  {
    NoQuestionMarkInBase(hostUrl);
    var u, t, a := Render(song.url), Render(song.title), Render(song.artist);
    DownloadArgs(BaseUrl(hostUrl) + DownloadRoute, u, t, a);
    UnescapePlain(u);
    UnescapePlain(t);
    UnescapePlain(a);
  }

  /** As written, a title holding `&` is cut at the first `&`: the download
      route reads back only the part before it. */
  lemma TitleCutAtAmpersand(hostUrl: string, song: Song, a: string, b: string)
    requires '?' !in hostUrl
    requires song.title == Some(a + "&" + b)
    requires '&' !in Render(song.url) && '&' !in a
    requires '#' !in Render(song.url) && '#' !in a && '#' !in b && '#' !in Render(song.artist)
    ensures Arg(QueryArgs(DownloadLink(BaseUrl(hostUrl), song)), "title") == Some(Unescape(a))
  {
    NoQuestionMarkInBase(hostUrl);
    AmpersandCutsTitle(BaseUrl(hostUrl) + DownloadRoute, Render(song.url), a, b, Render(song.artist));
  }

  /** The song titled `A&B` comes back from its own link titled `A`. */
  lemma TitleWithAmpersandLost()
    ensures var song := Song(Some("A&B"), Some("x"), None, None, Some("u"));
      var title := Arg(QueryArgs(DownloadLink(BaseUrl("http://h/"), song)), "title");
      title == Some("A") && title != song.title
  {
    var song := Song(Some("A&B"), Some("x"), None, None, Some("u"));
    assert "A&B" == "A" + "&" + "B";
    TitleCutAtAmpersand("http://h/", song, "A", "B");
    UnescapePlain("A");
  }

  /** The corrected link: every value is escaped before it is concatenated. */
  function EncodedDownloadLink(base: string, song: Song): string {
    LinkHead(base) + Escape(Render(song.url)) + "&title=" + Escape(Render(song.title))
      + "&artist=" + Escape(Render(song.artist))
  }

  /** The corrected link carries every song's url, title and artist to the
      download route intact, whatever characters they hold. */
  lemma EncodedLinkReadsBack(hostUrl: string, song: Song)
    requires '?' !in hostUrl
    ensures var args := QueryArgs(EncodedDownloadLink(BaseUrl(hostUrl), song));
      && Arg(args, "url") == Some(Render(song.url))
      && Arg(args, "title") == Some(Render(song.title))
      && Arg(args, "artist") == Some(Render(song.artist))
  {
    NoQuestionMarkInBase(hostUrl);
    var u, t, a := Render(song.url), Render(song.title), Render(song.artist);
    DownloadArgs(BaseUrl(hostUrl) + DownloadRoute, Escape(u), Escape(t), Escape(a));
    UnescapeEscape(u);
    UnescapeEscape(t);
    UnescapeEscape(a);
  }

  // ---------------------------------------------------------------------------
  // The download route.

  /** The served file name: both parts sanitized, joined by ` - `, with `.mp3`.
      Sanitizing the parts apart is sanitizing the joined `title - artist`. */
  function DownloadFilename(title: string, artist: string): (n: string)
    ensures IsClean(n)
    ensures |n| >= 7 && n[|n| - 4..] == ".mp3"
    ensures n == StripReserved(title + " - " + artist) + ".mp3"
  {
    var t := StripReserved(title);
    var a := StripReserved(artist);
    CleanAppend(t, " - ");
    CleanAppend(t + " - ", a);
    CleanAppend(t + " - " + a, ".mp3");
    StripReservedAppend(title, " - ");
    StripReservedAppend(title + " - ", artist);
    StripReservedKeepsClean(" - ");
    t + " - " + a + ".mp3"
  }

  /** The served name has a line break exactly when the title or the artist
      has one: the sanitizer keeps line breaks. */
  lemma DownloadFilenameSafe(title: string, artist: string)
    ensures HeaderSafe(DownloadFilename(title, artist)) <==> HeaderSafe(title) && HeaderSafe(artist)
  {
    var t, a := StripReserved(title), StripReserved(artist);
    StripReservedKeepsChar(title, '\r');
    StripReservedKeepsChar(title, '\n');
    StripReservedKeepsChar(artist, '\r');
    StripReservedKeepsChar(artist, '\n');
    assert DownloadFilename(title, artist) == t + " - " + a + ".mp3";
  }

  /** The download route's response headers, in the order the route sets them. */
  function MusicHeaders(title: string, artist: string): Headers {
    [("Content-Type", "audio/mpeg"),
     ("Content-Disposition", Disposition(DownloadFilename(title, artist)))]
  }

  /** The headers are acceptable exactly when the title and the artist have no line break. */
  lemma MusicHeadersSafe(title: string, artist: string)
    ensures AllHeaderSafe(MusicHeaders(title, artist)) <==> HeaderSafe(title) && HeaderSafe(artist)
  {
    var h := MusicHeaders(title, artist);
    DownloadFilenameSafe(title, artist);
    DispositionSafe(DownloadFilename(title, artist));
    assert HeaderSafe(h[0].1);
    assert AllHeaderSafe(h) <==> HeaderSafe(h[1].1);
  }

  /** The served name has no double quote, so it reads back from the header intact. */
  lemma FilenameReadsBack(title: string, artist: string)
    ensures var name := DownloadFilename(title, artist);
      DispositionName(Disposition(name)) == Some(name)
  {
    var name := DownloadFilename(title, artist);
    assert forall i :: 0 <= i < |name| ==> name[i] != '"' by {
      assert forall i :: 0 <= i < |name| ==> !IsReserved(name[i]);
    }
    DispositionRoundTrip(name);
  }

  /** The `music_download` route; `upstream` is what the download POST would
      yield. Both calls are issued before the response is built, so a refused
      header still costs them. */
  function MusicDownload(args: Args, upstream: seq<Chunk>): (e: Exchange<StreamReply>)
    ensures !Usable(Arg(args, "url")) ==> e.calls == [] && e.reply.Status() == 400
    ensures Usable(Arg(args, "url")) ==> |e.calls| == 2
    ensures Usable(Arg(args, "url")) ==>
      var title, artist := Arg(args, "title").GetOr(DefaultTitle), Arg(args, "artist").GetOr(DefaultArtist);
      e.reply.Status() == if HeaderSafe(title) && HeaderSafe(artist) then 200 else 500
  {
    var target := Arg(args, "url");
    var title := Arg(args, "title").GetOr(DefaultTitle);
    var artist := Arg(args, "artist").GetOr(DefaultArtist);
    if !Usable(target) then Exchange([], MissingParam("Parameter 'url' required"))
    else
      Exchange(DownloadCalls(target.value), DownloadReply(title, artist, upstream))
  }

  /** The two provider calls of an accepted download, in the order they are made. */
  function DownloadCalls(url: string): (calls: seq<Call>)
    ensures |calls| == 2
  {
    [Call(Get, CheckEndpoint, Profile(AppVersion, MusicMeta), [("url", url)], false),
     Call(Post, DownloadEndpoint, Profile(AppVersion, MusicMeta), [("url", url)], true)]
  }

  /** The response of an accepted download: the stream under the route's
      headers, or Werkzeug's 500 when the title or the artist has a line break. */
  function DownloadReply(title: string, artist: string, upstream: seq<Chunk>): (r: StreamReply)
    ensures r.Streaming? <==> HeaderSafe(title) && HeaderSafe(artist)
    ensures !r.Streaming? ==> r == Failed(NewlineRefused)
    ensures r.Status() == if HeaderSafe(title) && HeaderSafe(artist) then 200 else 500
  {
    MusicHeadersSafe(title, artist);
    Respond(MusicHeaders(title, artist), Forwarded(upstream))
  }

  /** For an accepted url: the check GET, then the streamed download POST,
      both for that url and with app.py's music headers. */
  lemma MusicDownloadCalls(args: Args, upstream: seq<Chunk>)
    requires Usable(Arg(args, "url"))
    ensures var e := MusicDownload(args, upstream);
      && e.calls[0] == Call(Get, CheckEndpoint, Profile(AppVersion, MusicMeta), [("url", args["url"])], false)
      && e.calls[1] == Call(Post, DownloadEndpoint, Profile(AppVersion, MusicMeta), [("url", args["url"])], true)
  {
    assert MusicDownload(args, upstream).calls == DownloadCalls(args["url"]);
  }

  /** After the calls: a 500 with Werkzeug's error text when the title or the
      artist holds a line break, and otherwise the stream whose body is
      exactly the non-empty upstream chunks. */
  lemma MusicDownloadAccepted(args: Args, upstream: seq<Chunk>)
    requires Usable(Arg(args, "url"))
    ensures var e := MusicDownload(args, upstream);
      var title, artist := Arg(args, "title").GetOr(DefaultTitle), Arg(args, "artist").GetOr(DefaultArtist);
      && (e.reply.Streaming? <==> HeaderSafe(title) && HeaderSafe(artist))
      && (!e.reply.Streaming? ==> e.reply == Failed(NewlineRefused))
      && (e.reply.Streaming? ==>
            && e.reply.body == Forwarded(upstream)
            && Flatten(e.reply.body) == Flatten(upstream)
            && (forall k :: 0 <= k < |e.reply.body| ==> e.reply.body[k] != []))
  {
    var title, artist := Arg(args, "title").GetOr(DefaultTitle), Arg(args, "artist").GetOr(DefaultArtist);
    assert MusicDownload(args, upstream).reply == DownloadReply(title, artist, upstream);
  }

  /** When the stream is served, it is audio named `title - artist.mp3` from
      the sanitized (or default) title and artist, and the name reads back
      intact from the header. */
  lemma MusicDownloadName(args: Args, upstream: seq<Chunk>)
    requires Usable(Arg(args, "url"))
    ensures var e := MusicDownload(args, upstream);
      var name := DownloadFilename(Arg(args, "title").GetOr(DefaultTitle), Arg(args, "artist").GetOr(DefaultArtist));
      e.reply.Streaming? ==>
        && |e.reply.headers| == 2
        && e.reply.headers[0] == ("Content-Type", "audio/mpeg")
        && e.reply.headers[1].0 == "Content-Disposition"
        && DispositionName(e.reply.headers[1].1) == Some(name)
  {
    FilenameReadsBack(Arg(args, "title").GetOr(DefaultTitle), Arg(args, "artist").GetOr(DefaultArtist));
  }

  /** A title and artist already free of reserved characters are kept verbatim. */
  lemma DownloadFilenameKeepsClean(title: string, artist: string)
    requires IsClean(title) && IsClean(artist)
    ensures DownloadFilename(title, artist) == title + " - " + artist + ".mp3"
  {
    StripReservedKeepsClean(title);
    StripReservedKeepsClean(artist);
  }

  /** Following a search result's link, for a song whose url is non-empty and
      whose fields are link-safe, downloads that url under the name built from
      the song's own title and artist, unless a line break in them makes the
      response fail. */
  lemma SearchThenDownload(hostUrl: string, song: Song, upstream: seq<Chunk>)
    requires '?' !in hostUrl
    requires LinkSafe(Render(song.url)) && LinkSafe(Render(song.title)) && LinkSafe(Render(song.artist))
    requires Render(song.url) != ""
    ensures var e := MusicDownload(QueryArgs(DownloadLink(BaseUrl(hostUrl), song)), upstream);
      && |e.calls| == 2
      && e.calls[1] == Call(Post, DownloadEndpoint, Profile(AppVersion, MusicMeta), [("url", Render(song.url))], true)
      && (e.reply.Streaming? <==> HeaderSafe(Render(song.title)) && HeaderSafe(Render(song.artist)))
      && (e.reply.Streaming? ==>
            && |e.reply.headers| == 2
            && e.reply.headers[0] == ("Content-Type", "audio/mpeg")
            && e.reply.headers[1].0 == "Content-Disposition"
            && DispositionName(e.reply.headers[1].1) == Some(DownloadFilename(Render(song.title), Render(song.artist)))
            && e.reply.body == Forwarded(upstream))
  {
    DownloadLinkReadsBack(hostUrl, song);
    MusicDownloadCalls(QueryArgs(DownloadLink(BaseUrl(hostUrl), song)), upstream);
    MusicDownloadAccepted(QueryArgs(DownloadLink(BaseUrl(hostUrl), song)), upstream);
    MusicDownloadName(QueryArgs(DownloadLink(BaseUrl(hostUrl), song)), upstream);
  }

  /** With the corrected link, following any search result whose url is
      non-empty downloads that url under the name built from the song's own
      title and artist, unless a line break in them makes the response fail. */
  lemma EncodedSearchThenDownload(hostUrl: string, song: Song, upstream: seq<Chunk>)
    requires '?' !in hostUrl
    requires Render(song.url) != ""
    ensures var e := MusicDownload(QueryArgs(EncodedDownloadLink(BaseUrl(hostUrl), song)), upstream);
      && |e.calls| == 2
      && e.calls[1] == Call(Post, DownloadEndpoint, Profile(AppVersion, MusicMeta), [("url", Render(song.url))], true)
      && (e.reply.Streaming? <==> HeaderSafe(Render(song.title)) && HeaderSafe(Render(song.artist)))
      && (e.reply.Streaming? ==>
            && |e.reply.headers| == 2
            && e.reply.headers[0] == ("Content-Type", "audio/mpeg")
            && e.reply.headers[1].0 == "Content-Disposition"
            && DispositionName(e.reply.headers[1].1) == Some(DownloadFilename(Render(song.title), Render(song.artist)))
            && e.reply.body == Forwarded(upstream))
  {
    EncodedLinkReadsBack(hostUrl, song);
    MusicDownloadCalls(QueryArgs(EncodedDownloadLink(BaseUrl(hostUrl), song)), upstream);
    MusicDownloadAccepted(QueryArgs(EncodedDownloadLink(BaseUrl(hostUrl), song)), upstream);
    MusicDownloadName(QueryArgs(EncodedDownloadLink(BaseUrl(hostUrl), song)), upstream);
  }
}

=== FILE: options.dfy ===
/** Optional values: the model's stand-in for Python's `None`. */
module Options {

  datatype Option<+T> = None | Some(value: T) {

    /** The value, or `default` when absent (Python's `d.get(key, default)`). */
    function GetOr(default: T): T {
      match this
      case Some(v) => v
      case None => default
    }
  }
}

=== FILE: params.dfy ===
/** Request parameters: query-string arguments, the optional JSON body, and
    where each server looks for the `url` of the TikTok route. */
module Params {
  import opened Options

  /** `request.args`: one value per key (the first, as `args.get` returns). */
  type Args = map<string, string>

  /** `request.get_json(silent=True)`: None when there is no body or it does
      not parse as JSON; otherwise an object with string values. */
  type Body = Option<map<string, string>>

  /** `args.get(key)`. */
  function Arg(args: map<string, string>, key: string): (r: Option<string>)
    ensures r.Some? <==> key in args
    ensures r.Some? ==> r.value == args[key]
  {
    if key in args then Some(args[key]) else None
  }

  /** Python truthiness of an optional string: present and not empty. */
  predicate Usable(v: Option<string>) {
    v.Some? && v.value != ""
  }

  /** Python truthiness of the parsed body: an object with at least one key. */
  predicate BodyTruthy(body: Body) {
    body.Some? && |body.value| > 0
  }

  /** A required parameter as the handlers see it: an empty or missing value is absent. */
  function Required(v: Option<string>): (r: Option<string>)
    ensures r.Some? <==> Usable(v)
    ensures r.Some? ==> r == v
  {
    if Usable(v) then v else None
  }

  /** api/index.py, body first: a truthy body is the only source, even when it
      has no `url`; the query string is read only when the body is not truthy. */
  function UrlApi(args: Args, body: Body): (r: Option<string>)
    ensures r == Arg(args, "url") || (BodyTruthy(body) && r == Arg(body.value, "url"))
    ensures body.Some? && Usable(Arg(body.value, "url")) ==> r == Arg(body.value, "url")
    ensures BodyTruthy(body) && "url" !in body.value ==> r == None
    ensures BodyTruthy(body) && !Usable(Arg(body.value, "url")) ==> !Usable(r)
  {
    if BodyTruthy(body) then Arg(body.value, "url") else Arg(args, "url")
  }

  /** app.py, query first: the body is read only when the query value is
      missing or empty, and only when it has a `url` key. */
  function UrlApp(args: Args, body: Body): (r: Option<string>)
    ensures r == Arg(args, "url") || (body.Some? && r == Arg(body.value, "url"))
    ensures Usable(Arg(args, "url")) ==> r == Arg(args, "url")
    ensures !Usable(Arg(args, "url")) && body.Some? && "url" in body.value ==> r == Arg(body.value, "url")
  {
    var q := Arg(args, "url");
    if Usable(q) then q
    else if body.Some? && "url" in body.value then Some(body.value["url"])
    else q
  }

  /** When only one place can supply the url, the two servers accept the same url:
      there is no truthy body, or the body has a url and the query has none. */
  lemma UrlSourcesAgree(args: Args, body: Body)
    requires !BodyTruthy(body) || ("url" in body.value && !Usable(Arg(args, "url")))
    ensures Required(UrlApi(args, body)) == Required(UrlApp(args, body))
  {
    if BodyTruthy(body) {
      assert UrlApi(args, body) == Some(body.value["url"]);
    }
  }

  /** When both supply a url, api/index.py takes the body's, app.py the query's. */
  lemma UrlSourcesConflict(args: Args, body: Body)
    requires Usable(Arg(args, "url")) && body.Some? && Usable(Arg(body.value, "url"))
    ensures Required(UrlApi(args, body)) == Some(body.value["url"])
    ensures Required(UrlApp(args, body)) == Some(args["url"])
  {
  }

  /** A truthy body without a usable `url` (none, or an empty one) hides the
      query's url from api/index.py, while app.py still uses it. */
  lemma BodyWithoutUrlHidesQuery(args: Args, body: Body)
    requires Usable(Arg(args, "url")) && BodyTruthy(body) && !Usable(Arg(body.value, "url"))
    ensures Required(UrlApi(args, body)) == None
    ensures Required(UrlApp(args, body)) == Some(args["url"])
  {
  }
}

=== FILE: query_string.dfy ===
/** Reading arguments back out of a link, the way the download route receives
    them: the query is what follows the first `?` (up to a `#`), pairs are
    separated by `&`, a pair splits at its first `=`, `+` decodes to a space
    and `%HH` to the character with that code; the first pair with a given
    key supplies `args.get(key)`. Also the escaping a link builder needs so
    that every value reads back unchanged. */
module QueryString {
  import opened Options
  import opened Params

  // ---------------------------------------------------------------------------
  // Hex digits.

  predicate IsHex(c: char) {
    ('0' <= c <= '9') || ('a' <= c <= 'f') || ('A' <= c <= 'F')
  }

  function HexValue(c: char): (v: int)
    requires IsHex(c)
    ensures 0 <= v < 16
  {
    if '0' <= c <= '9' then c as int - '0' as int
    else if 'a' <= c <= 'f' then c as int - 'a' as int + 10
    else c as int - 'A' as int + 10
  }

  function HexDigit(n: int): (c: char)
    requires 0 <= n < 16
    ensures IsHex(c) && HexValue(c) == n
  {
    if n < 10 then ('0' as int + n) as char else ('A' as int + n - 10) as char
  }

  // ---------------------------------------------------------------------------
  // Escaping one value.

  /** Characters that would change how a value is read back. */
  const Special: set<char> := {'%', '&', '+', '#', '=', ' '}

  predicate NeedsEscape(c: char) {
    c in Special
  }

  function EscapeChar(c: char): string {
    if NeedsEscape(c) then ['%', HexDigit(c as int / 16), HexDigit(c as int % 16)] else [c]
  }

  /** Escapes the special characters as `%HH`; the result has no pair or
      fragment separator in it. */
  function Escape(s: string): (r: string)
    ensures '&' !in r && '#' !in r
    decreases |s|
  {
    if s == [] then [] else EscapeChar(s[0]) + Escape(s[1..])
  }

  /** Form decoding of one key or value. */
  function Unescape(s: string): string
    decreases |s|
  {
    if s == [] then []
    else if s[0] == '%' && |s| >= 3 && IsHex(s[1]) && IsHex(s[2]) then
      [(HexValue(s[1]) * 16 + HexValue(s[2])) as char] + Unescape(s[3..])
    else if s[0] == '+' then [' '] + Unescape(s[1..])
    else [s[0]] + Unescape(s[1..])
  }

  /** Decoding leaves a string without `%` and `+` alone. */
  lemma {:induction false} UnescapePlain(s: string)
    requires '%' !in s && '+' !in s
    ensures Unescape(s) == s
    decreases |s|
  {
    if s != [] {
      UnescapePlain(s[1..]);
      assert [s[0]] + s[1..] == s;
    }
  }

  /** Decoding undoes escaping, for every string. */
  lemma {:induction false} UnescapeEscape(s: string)
    ensures Unescape(Escape(s)) == s
    decreases |s|
  {
    if s != [] {
      var c := s[0];
      var t := Escape(s[1..]);
      UnescapeEscape(s[1..]);
      var e := EscapeChar(c) + t;
      assert Escape(s) == e;
      if NeedsEscape(c) {
        assert e[0] == '%' && e[1] == HexDigit(c as int / 16) && e[2] == HexDigit(c as int % 16);
        assert e[3..] == t;
        assert (HexValue(e[1]) * 16 + HexValue(e[2])) as char == c;
      } else {
        assert e[0] == c && e[1..] == t;
      }
      assert [c] + s[1..] == s;
    }
  }

  // ---------------------------------------------------------------------------
  // Splitting a query.

  /** Position of the first `c` in `s`. */
  function IndexOf(s: string, c: char): (i: nat)
    requires c in s
    ensures i < |s| && s[i] == c
    ensures forall j :: 0 <= j < i ==> s[j] != c
    decreases |s|
  {
    if s[0] == c then 0 else IndexOf(s[1..], c) + 1
  }

  lemma IndexOfAfter(x: string, c: char, y: string)
    requires c !in x
    ensures IndexOf(x + [c] + y, c) == |x|
  {
    var s := x + [c] + y;
    assert s[|x|] == c;
    assert forall j :: 0 <= j < |x| ==> s[j] == x[j] && s[j] != c;
  }

  /** Python's `s.split(sep)`. */
  function Split(s: string, sep: char): (parts: seq<string>)
    ensures |parts| >= 1
    decreases |s|
  {
    if sep !in s then [s]
    else
      var i := IndexOf(s, sep);
      [s[..i]] + Split(s[i + 1..], sep)
  }

  lemma SplitCons(x: string, sep: char, y: string)
    requires sep !in x
    ensures Split(x + [sep] + y, sep) == [x] + Split(y, sep)
  {
    var s := x + [sep] + y;
    IndexOfAfter(x, sep, y);
    assert s[..|x|] == x;
    assert s[|x| + 1..] == y;
  }

  /** One `key=value` segment; without `=` the value is empty. */
  function PairOf(seg: string): (string, string) {
    if '=' in seg then
      var i := IndexOf(seg, '=');
      (Unescape(seg[..i]), Unescape(seg[i + 1..]))
    else (Unescape(seg), "")
  }

  lemma PairOfKeyValue(head: string, k: string, v: string)
    requires PlainKey(head, k)
    ensures PairOf(head + v) == (k, Unescape(v))
  {
    var seg := k + "=" + v;
    assert head + v == seg;
    assert seg == k + ['='] + v;
    IndexOfAfter(k, '=', v);
    assert seg[..|k|] == k;
    assert seg[|k| + 1..] == v;
    UnescapePlain(k);
  }

  /** The decoded pairs of a query; empty segments are skipped. */
  function Pairs(segs: seq<string>): seq<(string, string)>
    decreases |segs|
  {
    if segs == [] then []
    else if segs[0] == "" then Pairs(segs[1..])
    else [PairOf(segs[0])] + Pairs(segs[1..])
  }

  /** The argument map: the first pair with a key wins. */
  function ToArgs(pairs: seq<(string, string)>): Args
    decreases |pairs|
  {
    if pairs == [] then map[]
    else ToArgs(pairs[1..])[pairs[0].0 := pairs[0].1]
  }

  /** What follows the first `?`, up to the first `#`. */
  function QueryPart(url: string): string {
    var rest := if '?' in url then url[IndexOf(url, '?') + 1..] else "";
    if '#' in rest then rest[..IndexOf(rest, '#')] else rest
  }

  /** `request.args` of a request for `url`. */
  function QueryArgs(url: string): Args {
    ToArgs(Pairs(Split(QueryPart(url), '&')))
  }

  /** The query of `prefix?q` is `q` when the prefix has no `?` and nothing has a `#`. */
  lemma QueryPartAfter(prefix: string, q: string)
    requires '?' !in prefix && '#' !in q
    ensures QueryPart(prefix + "?" + q) == q
  {
    var url := prefix + "?" + q;
    assert url == prefix + ['?'] + q;
    IndexOfAfter(prefix, '?', q);
    assert url[|prefix| + 1..] == q;
  }

  lemma SplitThree(p1: string, p2: string, p3: string)
    requires '&' !in p1 && '&' !in p2 && '&' !in p3
    ensures Split(p1 + ['&'] + (p2 + ['&'] + p3), '&') == [p1, p2, p3]
  {
    SplitCons(p1, '&', p2 + ['&'] + p3);
    SplitCons(p2, '&', p3);
  }

  lemma PairsCons(seg: string, rest: seq<string>)
    requires seg != ""
    ensures Pairs([seg] + rest) == [PairOf(seg)] + Pairs(rest)
  {
    assert ([seg] + rest)[1..] == rest;
  }

  lemma PairsOfThree(s1: string, s2: string, s3: string)
    requires s1 != "" && s2 != "" && s3 != ""
    ensures Pairs([s1, s2, s3]) == [PairOf(s1), PairOf(s2), PairOf(s3)]
  {
    PairsCons(s3, []);
    PairsCons(s2, [s3]);
    PairsCons(s1, [s2, s3]);
    assert [s3] + [] == [s3];
    assert [s2] + [s3] == [s2, s3];
    assert [s1] + [s2, s3] == [s1, s2, s3];
  }

  /** The download link's keys are plain: no `=`, `%` or `+`. */
  predicate PlainKey(head: string, k: string) {
    head == k + "=" && '=' !in k && '%' !in k && '+' !in k
  }

  lemma DownloadKeysPlain()
    ensures PlainKey("url=", "url") && PlainKey("title=", "title") && PlainKey("artist=", "artist")
  {
  }

  /** The three fields of a download link decode to their keys and values. */
  lemma FieldPairs(x: string, y: string, z: string)
    ensures PairOf("url=" + x) == ("url", Unescape(x))
    ensures PairOf("title=" + y) == ("title", Unescape(y))
    ensures PairOf("artist=" + z) == ("artist", Unescape(z))
  {
    DownloadKeysPlain();
    PairOfKeyValue("url=", "url", x);
    PairOfKeyValue("title=", "title", y);
    PairOfKeyValue("artist=", "artist", z);
  }

  lemma PairsThree(x: string, y: string, z: string)
    ensures Pairs(["url=" + x, "title=" + y, "artist=" + z])
      == [("url", Unescape(x)), ("title", Unescape(y)), ("artist", Unescape(z))]
  {
    var s1, s2, s3 := "url=" + x, "title=" + y, "artist=" + z;
    assert s1[0] == 'u' && s2[0] == 't' && s3[0] == 'a';
    PairsOfThree(s1, s2, s3);
    FieldPairs(x, y, z);
  }

  lemma ToArgsCons(k: string, v: string, rest: seq<(string, string)>)
    ensures ToArgs([(k, v)] + rest) == ToArgs(rest)[k := v]
  {
    assert ([(k, v)] + rest)[1..] == rest;
  }

  /** Arguments read from the three pairs. */
  lemma ToArgsThree(a: string, b: string, c: string)
    ensures Arg(ToArgs([("url", a), ("title", b), ("artist", c)]), "url") == Some(a)
    ensures Arg(ToArgs([("url", a), ("title", b), ("artist", c)]), "title") == Some(b)
    ensures Arg(ToArgs([("url", a), ("title", b), ("artist", c)]), "artist") == Some(c)
  {
    ToArgsCons("artist", c, []);
    ToArgsCons("title", b, [("artist", c)]);
    ToArgsCons("url", a, [("title", b), ("artist", c)]);
    assert [("artist", c)] + [] == [("artist", c)];
    assert [("title", b)] + [("artist", c)] == [("title", b), ("artist", c)];
    assert [("url", a)] + [("title", b), ("artist", c)] == [("url", a), ("title", b), ("artist", c)];
    assert "url" != "title" && "url" != "artist" && "title" != "artist";
  }

  /** `prefix?url=x&title=y&artist=z` is `prefix?` followed by three `&`-separated pairs. */
  lemma DownloadLinkShape(prefix: string, x: string, y: string, z: string)
    ensures prefix + "?url=" + x + "&title=" + y + "&artist=" + z
      == prefix + "?" + (("url=" + x) + ['&'] + (("title=" + y) + ['&'] + ("artist=" + z)))
  {
  }

  /** A link of the download route's shape, `prefix?url=x&title=y&artist=z`,
      reads back the decoded values when no value holds a `&` or `#`. */
  lemma DownloadArgs(prefix: string, x: string, y: string, z: string)
    requires '?' !in prefix
    requires '&' !in x && '&' !in y && '&' !in z
    requires '#' !in x && '#' !in y && '#' !in z
    ensures var args := QueryArgs(prefix + "?url=" + x + "&title=" + y + "&artist=" + z);
      && Arg(args, "url") == Some(Unescape(x))
      && Arg(args, "title") == Some(Unescape(y))
      && Arg(args, "artist") == Some(Unescape(z))
  {
    var p1, p2, p3 := "url=" + x, "title=" + y, "artist=" + z;
    var q := p1 + ['&'] + (p2 + ['&'] + p3);
    DownloadLinkShape(prefix, x, y, z);
    assert '#' !in q;
    QueryPartAfter(prefix, q);
    SplitThree(p1, p2, p3);
    PairsThree(x, y, z);
    ToArgsThree(Unescape(x), Unescape(y), Unescape(z));
  }

  lemma Regroup<T>(p: seq<T>, q: seq<T>, u: seq<T>, x: seq<T>, amp: seq<T>, t: seq<T>,
                   a: seq<T>, b: seq<T>, r: seq<T>, z: seq<T>)
    ensures p + (q + u) + x + (amp + t) + (a + amp + b) + r + z
      == p + q + ((u + x) + amp + ((t + a) + amp + (b + r + z)))
  {
  }

  lemma CutTitleShape(prefix: string, x: string, a: string, b: string, z: string)
    requires '#' !in x && '#' !in a && '#' !in b && '#' !in z
    ensures var q := ("url=" + x) + ['&'] + (("title=" + a) + ['&'] + (b + "&artist=" + z));
      && prefix + "?url=" + x + "&title=" + (a + "&" + b) + "&artist=" + z == prefix + "?" + q
      && '#' !in q
  {
    assert "?url=" == "?" + "url=";
    assert "&title=" == ['&'] + "title=";
    assert "&" == ['&'];
    Regroup(prefix, "?", "url=", x, ['&'], "title=", a, b, "&artist=", z);
  }

  lemma SplitTwoThen(p1: string, p2: string, r: string)
    requires '&' !in p1 && '&' !in p2
    ensures Split(p1 + ['&'] + (p2 + ['&'] + r), '&') == [p1, p2] + Split(r, '&')
  {
    SplitCons(p1, '&', p2 + ['&'] + r);
    SplitCons(p2, '&', r);
    assert [p1] + ([p2] + Split(r, '&')) == [p1, p2] + Split(r, '&');
  }

  lemma PairsTwoThen(p1: string, p2: string, rest: seq<string>)
    requires p1 != "" && p2 != ""
    ensures Pairs([p1, p2] + rest) == [PairOf(p1), PairOf(p2)] + Pairs(rest)
  {
    PairsCons(p2, rest);
    assert [p1, p2] + rest == [p1] + ([p2] + rest);
    PairsCons(p1, [p2] + rest);
  }

  lemma CutTitlePairs(x: string, a: string, r: string)
    requires '&' !in x && '&' !in a
    ensures Pairs(Split(("url=" + x) + ['&'] + (("title=" + a) + ['&'] + r), '&'))
      == [("url", Unescape(x)), ("title", Unescape(a))] + Pairs(Split(r, '&'))
  {
    var p1, p2 := "url=" + x, "title=" + a;
    SplitTwoThen(p1, p2, r);
    assert p1[0] == 'u' && p2[0] == 't';
    PairsTwoThen(p1, p2, Split(r, '&'));
    FieldPairs(x, a, "");
  }

  lemma TitleAfterUrl(u: string, t: string, tail: seq<(string, string)>)
    ensures Arg(ToArgs([("url", u), ("title", t)] + tail), "title") == Some(t)
  {
    ToArgsCons("url", u, [("title", t)] + tail);
    ToArgsCons("title", t, tail);
    assert [("url", u), ("title", t)] + tail == [("url", u)] + ([("title", t)] + tail);
    assert "url" != "title";
  }

  /** An unescaped `&` inside the title ends it: the link reads back only the
      part before the `&`. */
  lemma AmpersandCutsTitle(prefix: string, x: string, a: string, b: string, z: string)
    requires '?' !in prefix
    requires '&' !in x && '&' !in a
    requires '#' !in x && '#' !in a && '#' !in b && '#' !in z
    ensures Arg(QueryArgs(prefix + "?url=" + x + "&title=" + (a + "&" + b) + "&artist=" + z), "title")
      == Some(Unescape(a))
  {
    var r := b + "&artist=" + z;
    var q := ("url=" + x) + ['&'] + (("title=" + a) + ['&'] + r);
    CutTitleShape(prefix, x, a, b, z);
    QueryPartAfter(prefix, q);
    CutTitlePairs(x, a, r);
    TitleAfterUrl(Unescape(x), Unescape(a), Pairs(Split(r, '&')));
  }
}

=== FILE: relay.dfy ===
/** The chunk relay: the `generate()` generators of both servers read the
    upstream body with `iter_content(chunk_size=4096)` and yield every chunk
    that is not empty. */
module Relay {
  import opened Seqs

  type Chunk = seq<bv8>

  /** The read size handed to `iter_content`. */
  const ChunkSize: nat := 4096

  /** The byte stream a sequence of chunks carries. */
  function Flatten(cs: seq<Chunk>): seq<bv8>
    decreases |cs|
  {
    if cs == [] then [] else cs[0] + Flatten(cs[1..])
  }

  predicate NonEmpty(c: Chunk) {
    c != []
  }

  /** What the client receives: every chunk is non-empty, there is one chunk
      per non-empty upstream chunk, and the bytes are exactly the upstream's. */
  function Forwarded(cs: seq<Chunk>): (out: seq<Chunk>)
    ensures forall k :: 0 <= k < |out| ==> NonEmpty(out[k])
    ensures |out| == Count(cs, NonEmpty)
    ensures Flatten(out) == Flatten(cs)
    decreases |cs|
  {
    if cs == [] then []
    else
      var rest := Forwarded(cs[1..]);
      if cs[0] == [] then rest
      else
        assert ([cs[0]] + rest)[1..] == rest;
        [cs[0]] + rest
  }

  /** The forwarded chunks are upstream chunks, in upstream order. */
  lemma {:induction false} ForwardedSubsequence(cs: seq<Chunk>)
    ensures IsSubsequence(Forwarded(cs), cs)
    decreases |cs|
  {
    if cs != [] {
      ForwardedSubsequence(cs[1..]);
      var rest := Forwarded(cs[1..]);
      if cs[0] != [] {
        assert Forwarded(cs) == [cs[0]] + rest;
        assert ([cs[0]] + rest)[1..] == rest;
      }
    }
  }

  /** Relaying is incremental: what is sent for a prefix of the upstream body
      is a prefix of what is sent for the whole. */
  lemma {:induction false} ForwardedAppend(a: seq<Chunk>, b: seq<Chunk>)
    ensures Forwarded(a + b) == Forwarded(a) + Forwarded(b)
    decreases |a|
  {
    if a == [] {
      assert a + b == b;
    } else {
      assert (a + b)[1..] == a[1..] + b;
      ForwardedAppend(a[1..], b);
    }
  }

  /** A stream with no empty chunk is relayed as is; so relaying twice is relaying once. */
  lemma {:induction false} ForwardedKeepsNonEmpty(cs: seq<Chunk>)
    requires forall k :: 0 <= k < |cs| ==> NonEmpty(cs[k])
    ensures Forwarded(cs) == cs
    decreases |cs|
  {
    if cs != [] {
      ForwardedKeepsNonEmpty(cs[1..]);
      assert [cs[0]] + cs[1..] == cs;
    }
  }

  /** Memory stays bounded: when no read is longer than `n` bytes (`ChunkSize`
      for `iter_content(chunk_size=4096)`), no forwarded chunk is either. */
  lemma {:induction false} ForwardedBounded(cs: seq<Chunk>, n: nat)
    requires forall k :: 0 <= k < |cs| ==> |cs[k]| <= n
    ensures forall k :: 0 <= k < |Forwarded(cs)| ==> |Forwarded(cs)[k]| <= n
    decreases |cs|
  {
    if cs != [] {
      ForwardedBounded(cs[1..], n);
      var rest := Forwarded(cs[1..]);
      if cs[0] != [] {
        assert Forwarded(cs) == [cs[0]] + rest;
      }
    }
  }

  /** One more upstream chunk adds itself to the output unless it is empty. */
  lemma ForwardedSnoc(p: seq<Chunk>, c: Chunk)
    ensures Forwarded(p + [c]) == Forwarded(p) + (if c == [] then [] else [c])
  {
    ForwardedAppend(p, [c]);
    assert [c][1..] == [];
  }

  /** The generator loop itself: skip empty chunks, yield the rest in order. */
  method Generate(cs: seq<Chunk>) returns (out: seq<Chunk>)
    ensures out == Forwarded(cs)
    ensures Flatten(out) == Flatten(cs)
    ensures forall k :: 0 <= k < |out| ==> NonEmpty(out[k])
  {
    out := [];
    var i := 0;
    while i < |cs|
      invariant 0 <= i <= |cs|
      invariant out == Forwarded(cs[..i])
    {
      assert cs[..i + 1] == cs[..i] + [cs[i]];
      ForwardedSnoc(cs[..i], cs[i]);
      if cs[i] != [] {
        out := out + [cs[i]];
      }
      i := i + 1;
    }
    assert cs[..i] == cs;
  }
}

=== FILE: sanitize.dfy ===
/** `sanitize_filename`, in the two variants of the server: app.py only removes
    the reserved characters, api/index.py also keeps at most 50 characters. */
module Sanitize {
  import opened Seqs

  /** The nine characters the sanitizer pattern deletes: backslash, slash, star,
      question mark, colon, double quote, the two angle brackets and bar. */
  const Reserved: set<char> := {'\\', '/', '*', '?', ':', '"', '<', '>', '|'}

  /** Length cap applied by the api/index.py variant. */
  const MaxNameLength: nat := 50

  predicate IsReserved(c: char) {
    c in Reserved
  }

  /** No reserved character anywhere in `s`. */
  predicate IsClean(s: string) {
    forall i :: 0 <= i < |s| ==> !IsReserved(s[i])
  }

  /** The regular-expression substitution that is the whole of app.py's sanitizer.
      The result is clean and exactly the reserved characters are gone. */
  function StripReserved(s: string): (r: string)
    ensures IsClean(r)
    ensures |r| == |s| - Count(s, IsReserved)
    decreases |s|
  {
    if s == [] then []
    else (if IsReserved(s[0]) then [] else [s[0]]) + StripReserved(s[1..])
  }

  /** What is kept is kept in order: the result is a subsequence of the input.
      With the length fact above, it is exactly the non-reserved characters. */
  lemma {:induction false} StripReservedSubsequence(s: string)
    ensures IsSubsequence(StripReserved(s), s)
    decreases |s|
  {
    if s != [] {
      StripReservedSubsequence(s[1..]);
      var t := StripReserved(s[1..]);
      if IsReserved(s[0]) {
        assert StripReserved(s) == t;
      } else {
        assert StripReserved(s) == [s[0]] + t;
        assert ([s[0]] + t)[1..] == t;
      }
    }
  }

  /** A name that is already clean comes back unchanged. */
  lemma {:induction false} StripReservedKeepsClean(s: string)
    requires IsClean(s)
    ensures StripReserved(s) == s
    decreases |s|
  {
    if s != [] {
      StripReservedKeepsClean(s[1..]);
      assert [s[0]] + s[1..] == s;
    }
  }

  /** Sanitizing twice is sanitizing once. */
  lemma {:induction false} StripReservedIdempotent(s: string)
    ensures StripReserved(StripReserved(s)) == StripReserved(s)
  {
    StripReservedKeepsClean(StripReserved(s));
  }

  /** A character outside the pattern, such as a line break, is in the result
      exactly when it is in the input. */
  lemma {:induction false} StripReservedKeepsChar(s: string, c: char)
    requires !IsReserved(c)
    ensures c in StripReserved(s) <==> c in s
    decreases |s|
  {
    if s != [] {
      StripReservedKeepsChar(s[1..], c);
      assert s == [s[0]] + s[1..];
    }
  }

  /** Removal works character by character, so it distributes over concatenation. */
  lemma {:induction false} StripReservedAppend(a: string, b: string)
    ensures StripReserved(a + b) == StripReserved(a) + StripReserved(b)
    decreases |a|
  {
    if a == [] {
      assert a + b == b;
    } else {
      assert (a + b)[1..] == a[1..] + b;
      StripReservedAppend(a[1..], b);
    }
  }

  /** Concatenations of clean strings are clean. */
  lemma CleanAppend(a: string, b: string)
    requires IsClean(a) && IsClean(b)
    ensures IsClean(a + b)
  {
    forall i | 0 <= i < |a + b|
      ensures !IsReserved((a + b)[i])
    {
      if i < |a| { assert (a + b)[i] == a[i]; } else { assert (a + b)[i] == b[i - |a|]; }
    }
  }

  /** api/index.py's sanitizer: strip, then keep the first 50 characters. */
  function SanitizeApi(s: string): (r: string)
    ensures IsClean(r)
    ensures |r| <= MaxNameLength
    ensures IsPrefix(r, StripReserved(s))
    ensures |StripReserved(s)| <= MaxNameLength ==> r == StripReserved(s)
    ensures |StripReserved(s)| > MaxNameLength ==> |r| == MaxNameLength
  {
    var clean := StripReserved(s);
    if |clean| <= MaxNameLength then clean else clean[..MaxNameLength]
  }

  /** A clean name of at most 50 characters passes through unchanged. */
  lemma SanitizeApiKeepsShortClean(s: string)
    requires IsClean(s) && |s| <= MaxNameLength
    ensures SanitizeApi(s) == s
  {
    StripReservedKeepsClean(s);
  }

  /** The truncating sanitizer is idempotent too. */
  lemma SanitizeApiIdempotent(s: string)
    ensures SanitizeApi(SanitizeApi(s)) == SanitizeApi(s)
  {
    SanitizeApiKeepsShortClean(SanitizeApi(s));
  }
}

=== FILE: seqs.dfy ===
/** Generic facts about sequences used by the filters of the model. */
module Seqs {

  /** `a` is obtained from `b` by deleting some elements (order kept). */
  predicate IsSubsequence<T(==)>(a: seq<T>, b: seq<T>)
    decreases |b|
  {
    a == [] ||
    (b != [] &&
     ((a[0] == b[0] && IsSubsequence(a[1..], b[1..])) || IsSubsequence(a, b[1..])))
  }

  /** Number of elements of `s` that satisfy `p`. */
  function Count<T>(s: seq<T>, p: T -> bool): nat
    decreases |s|
  {
    if s == [] then 0 else (if p(s[0]) then 1 else 0) + Count(s[1..], p)
  }

  /** No value occurs twice. */
  predicate NoDuplicates<T(==)>(s: seq<T>) {
    forall i, j :: 0 <= i < j < |s| ==> s[i] != s[j]
  }

  /** `p` is a prefix of `s`. */
  predicate IsPrefix<T(==)>(p: seq<T>, s: seq<T>) {
    |p| <= |s| && s[..|p|] == p
  }
}

=== FILE: stream.dfy ===
/** api/index.py's generic streamer `stream_content`: it checks the `url`
    argument, picks a header set from the URL, and relays the upstream body
    with a content type and file name derived from the `type` argument. */
module Stream {
  import opened Options
  import opened Params
  import opened Upstream
  import opened Relay
  import opened Sanitize
  import opened Seqs

  /** `type` when the argument is absent. */
  const DefaultType: string := "mp4"

  /** The Content-Type for the requested type. */
  function ContentTypeFor(fileType: string): (ct: string)
    ensures fileType == "video" ==> ct == "video/mp4"
    ensures fileType == "image" ==> ct == "image/jpeg"
    ensures fileType != "video" && fileType != "image" ==> ct == "audio/mpeg"
  {
    var ct := if fileType == "video" then "video/mp4" else "audio/mpeg";
    if fileType == "image" then "image/jpeg" else ct
  }

  /** The file extension for the requested type. */
  function ExtensionFor(fileType: string): (ext: string)
    ensures fileType == "video" ==> ext == "mp4"
    ensures fileType == "image" ==> ext == "jpg"
    ensures fileType != "video" && fileType != "image" ==> ext == "mp3"
  {
    if fileType == "image" then "jpg" else if fileType == "video" then "mp4" else "mp3"
  }

  /** The name inside Content-Disposition: the sanitized name, a dot, the
      extension. The stem is the longest prefix of at most 50 characters of
      the name with its reserved characters removed. */
  function FinalFilename(name: string, fileType: string): (r: string)
    ensures |r| > |ExtensionFor(fileType)|
    ensures var ext := ExtensionFor(fileType);
      var stem := r[..|r| - |ext| - 1];
      && r[|r| - |ext|..] == ext && r[|r| - |ext| - 1] == '.'
      && IsClean(stem) && IsPrefix(stem, StripReserved(name))
      && |stem| == if |StripReserved(name)| <= MaxNameLength then |StripReserved(name)| else MaxNameLength
  {
    var stem := SanitizeApi(name);
    var r := stem + "." + ExtensionFor(fileType);
    assert r[..|stem|] == stem;
    r
  }

  /** The response headers, in the order the route sets them. */
  function StreamHeaders(name: string, fileType: string): Headers {
    [("Content-Type", ContentTypeFor(fileType)),
     ("Content-Disposition", Disposition(FinalFilename(name, fileType))),
     ("Cache-Control", "no-cache")]
  }

  /** The headers are acceptable exactly when the sanitized stem has no line
      break: the reserved-character pattern keeps line breaks, and only the
      50-character cut can drop one. */
  lemma StreamHeadersSafe(name: string, fileType: string)
    ensures AllHeaderSafe(StreamHeaders(name, fileType)) <==> HeaderSafe(SanitizeApi(name))
  {
    var h := StreamHeaders(name, fileType);
    var stem, ext := SanitizeApi(name), ExtensionFor(fileType);
    assert FinalFilename(name, fileType) == stem + "." + ext;
    DispositionSafe(FinalFilename(name, fileType));
    assert HeaderSafe(h[0].1) && HeaderSafe(h[2].1);
    assert AllHeaderSafe(h) <==> HeaderSafe(h[1].1);
  }

  /** The `stream_content` route. `defaultName` stands for the clock-based
      `download_<seconds>` default; `upstream` is what the GET would yield.
      The GET is issued before the response is built, so a refused header
      still costs the upstream call. */
  function StreamContent(args: Args, defaultName: string, upstream: seq<Chunk>): (e: Exchange<StreamReply>)
    ensures !Usable(Arg(args, "url")) ==> e.calls == [] && e.reply.Status() == 400
    ensures Usable(Arg(args, "url")) ==> |e.calls| == 1
    ensures Usable(Arg(args, "url")) ==>
      e.reply.Status() == if HeaderSafe(SanitizeApi(Arg(args, "filename").GetOr(defaultName))) then 200 else 500
  {
    var url := Arg(args, "url");
    if !Usable(url) then Exchange([], MissingParam("URL parameter required"))
    else
      var fileType := Arg(args, "type").GetOr(DefaultType);
      var name := Arg(args, "filename").GetOr(defaultName);
      var call := Call(Get, url.value, Profile(ApiVersion, StreamProvider(url.value)), [], true);
      StreamHeadersSafe(name, fileType);
      Exchange([call], Respond(StreamHeaders(name, fileType), Forwarded(upstream)))
  }

  /** A file name built by the streamer never contains a double quote, so the
      Content-Disposition value reads back as that name. */
  lemma FinalFilenameInHeader(name: string, fileType: string)
    ensures DispositionName(Disposition(FinalFilename(name, fileType))) == Some(FinalFilename(name, fileType))
  {
    var stem := SanitizeApi(name);
    var f := FinalFilename(name, fileType);
    assert f == stem + "." + ExtensionFor(fileType);
    forall i | 0 <= i < |f|
      ensures f[i] != '"'
    {
      if i < |stem| {
        assert f[i] == stem[i];
        assert !IsReserved(stem[i]);
      }
    }
    DispositionRoundTrip(f);
  }

  /** What the route answers for a url it accepts: one streamed GET to that
      url with the headers of the provider the url names; then either a 500
      with Werkzeug's error text, when the sanitized name keeps a line break,
      or the stream with the content type of the requested type, the
      sanitized file name, no caching, and exactly the non-empty upstream
      chunks as body. */
  lemma StreamContentAccepted(args: Args, defaultName: string, upstream: seq<Chunk>)
    requires Usable(Arg(args, "url"))
    ensures var e := StreamContent(args, defaultName, upstream);
      var url := args["url"];
      var fileType := Arg(args, "type").GetOr(DefaultType);
      var name := Arg(args, "filename").GetOr(defaultName);
      && e.calls == [Call(Get, url, Profile(ApiVersion, StreamProvider(url)), [], true)]
      && (e.reply.Streaming? <==> HeaderSafe(SanitizeApi(name)))
      && (!e.reply.Streaming? ==> e.reply == Failed(NewlineRefused))
      && (e.reply.Streaming? ==>
            && |e.reply.headers| == 3
            && e.reply.headers[0] == ("Content-Type", ContentTypeFor(fileType))
            && e.reply.headers[1].0 == "Content-Disposition"
            && DispositionName(e.reply.headers[1].1) == Some(SanitizeApi(name) + "." + ExtensionFor(fileType))
            && e.reply.headers[2] == ("Cache-Control", "no-cache")
            && e.reply.body == Forwarded(upstream)
            && Flatten(e.reply.body) == Flatten(upstream)
            && (forall k :: 0 <= k < |e.reply.body| ==> e.reply.body[k] != []))
  {
    var name := Arg(args, "filename").GetOr(defaultName);
    var fileType := Arg(args, "type").GetOr(DefaultType);
    StreamHeadersSafe(name, fileType);
    FinalFilenameInHeader(name, fileType);
    assert FinalFilename(name, fileType) == SanitizeApi(name) + "." + ExtensionFor(fileType);
  }

  /** Without a `type` argument the route serves `audio/mpeg` under a `.mp3` name. */
  lemma DefaultTypeIsAudio(args: Args, defaultName: string, upstream: seq<Chunk>)
    requires Usable(Arg(args, "url")) && "type" !in args
    ensures var e := StreamContent(args, defaultName, upstream);
      var stem := SanitizeApi(Arg(args, "filename").GetOr(defaultName));
      && (e.reply.Streaming? <==> HeaderSafe(stem))
      && (e.reply.Streaming? ==>
            && e.reply.headers[0] == ("Content-Type", "audio/mpeg")
            && e.reply.headers[1].0 == "Content-Disposition"
            && DispositionName(e.reply.headers[1].1) == Some(stem + ".mp3"))
  {
    StreamContentAccepted(args, defaultName, upstream);
    assert Arg(args, "type").GetOr(DefaultType) == "mp4";
    assert ExtensionFor("mp4") == "mp3";
    var stem := SanitizeApi(Arg(args, "filename").GetOr(defaultName));
    assert stem + "." + "mp3" == stem + ".mp3";
  }
}

=== FILE: text.dfy ===
/** Python string operations the route handlers rely on: `in` on strings,
    `str.strip()` and `str.rstrip(c)`. */
module Text {
  import opened Seqs

  /** Python's `sub in s` for strings: `sub` occurs somewhere in `s`. */
  predicate Contains(s: string, sub: string)
    decreases |s|
  {
    |sub| <= |s| && (s[..|sub|] == sub || Contains(s[1..], sub))
  }

  /** `sub` occurs in `s` starting at offset `i`. */
  ghost predicate OccursAt(s: string, sub: string, i: int) {
    0 <= i && i + |sub| <= |s| && s[i..i + |sub|] == sub
  }

  /** An occurrence at any offset is found by the recursive search. */
  lemma {:induction false} OccursImpliesContains(s: string, sub: string, i: int)
    requires OccursAt(s, sub, i)
    ensures Contains(s, sub)
    decreases i
  {
    if i > 0 {
      assert s[1..][i - 1..i - 1 + |sub|] == s[i..i + |sub|];
      OccursImpliesContains(s[1..], sub, i - 1);
    }
  }

  /** The recursive search agrees with the declarative reading of `in`. */
  lemma {:induction false} ContainsIff(s: string, sub: string)
    ensures Contains(s, sub) <==> exists i :: OccursAt(s, sub, i)
    decreases |s|
  {
    if Contains(s, sub) {
      if s[..|sub|] == sub {
        assert OccursAt(s, sub, 0);
      } else {
        ContainsIff(s[1..], sub);
        var i :| OccursAt(s[1..], sub, i);
        assert s[1..][i..i + |sub|] == s[i + 1..i + 1 + |sub|];
        assert OccursAt(s, sub, i + 1);
      }
    }
    forall i | OccursAt(s, sub, i)
      ensures Contains(s, sub)
    {
      OccursImpliesContains(s, sub, i);
    }
  }

  /** The characters Python's `str.isspace()` accepts. */
  const Whitespace: set<char> := {
    '\t', '\n', '\U{0B}', '\U{0C}', '\r', '\U{1C}', '\U{1D}', '\U{1E}', '\U{1F}', ' ',
    '\U{85}', '\U{A0}', '\U{1680}',
    '\U{2000}', '\U{2001}', '\U{2002}', '\U{2003}', '\U{2004}', '\U{2005}',
    '\U{2006}', '\U{2007}', '\U{2008}', '\U{2009}', '\U{200A}',
    '\U{2028}', '\U{2029}', '\U{202F}', '\U{205F}', '\U{3000}'
  }

  predicate IsSpace(c: char) {
    c in Whitespace
  }

  /** `str.lstrip()`: drops the leading whitespace run, nothing else. */
  function LStrip(s: string): (r: string)
    ensures |r| <= |s| && r == s[|s| - |r|..]
    ensures forall k :: 0 <= k < |s| - |r| ==> IsSpace(s[k])
    ensures r == [] || !IsSpace(r[0])
    decreases |s|
  {
    if s != [] && IsSpace(s[0]) then LStrip(s[1..]) else s
  }

  /** `str.rstrip()`: drops the trailing whitespace run, nothing else. */
  function RStrip(s: string): (r: string)
    ensures IsPrefix(r, s)
    ensures forall k :: |r| <= k < |s| ==> IsSpace(s[k])
    ensures r == [] || !IsSpace(r[|r| - 1])
    decreases |s|
  {
    if s != [] && IsSpace(s[|s| - 1]) then RStrip(s[..|s| - 1]) else s
  }

  /** `r` is the infix of `s` at offset `lead` and everything around it is whitespace. */
  ghost predicate WhitespaceFramed(r: string, s: string, lead: int) {
    && 0 <= lead && lead + |r| <= |s|
    && s[lead..lead + |r|] == r
    && (forall k :: 0 <= k < lead ==> IsSpace(s[k]))
    && (forall k :: lead + |r| <= k < |s| ==> IsSpace(s[k]))
  }

  /** Cutting a whitespace run from the front of `s` and then one from the
      back of what is left frames the rest at the cut offset. */
  lemma FramedByCuts(s: string, l: string, r: string)
    requires |l| <= |s| && l == s[|s| - |l|..]
    requires forall k :: 0 <= k < |s| - |l| ==> IsSpace(s[k])
    requires IsPrefix(r, l)
    requires forall k :: |r| <= k < |l| ==> IsSpace(l[k])
    ensures WhitespaceFramed(r, s, |s| - |l|)
  {
    var lead := |s| - |l|;
    assert s[lead..lead + |r|] == l[..|r|];
    forall k | lead + |r| <= k < |s|
      ensures IsSpace(s[k])
    {
      assert s[k] == l[k - lead];
    }
  }

  /** Stripping the front and then the back leaves an infix that starts and
      ends with a non-space. */
  lemma StripsEnds(s: string)
    ensures var r := RStrip(LStrip(s)); r == [] || (!IsSpace(r[0]) && !IsSpace(r[|r| - 1]))
  {
    var l := LStrip(s);
    var r := RStrip(l);
    assert r != [] ==> r[0] == l[0];
  }

  /** What the two strips leave is framed by whitespace. */
  lemma StripsFrame(s: string)
    ensures exists lead :: WhitespaceFramed(RStrip(LStrip(s)), s, lead)
  {
    FramedByCuts(s, LStrip(s), RStrip(LStrip(s)));
  }

  /** `str.strip()`: the whitespace-framed infix with no whitespace at either end.
      Both ensures together determine the result uniquely. */
  function Strip(s: string): (r: string)
    ensures r == [] || (!IsSpace(r[0]) && !IsSpace(r[|r| - 1]))
    ensures exists lead :: WhitespaceFramed(r, s, lead)
  {
    StripsEnds(s);
    StripsFrame(s);
    RStrip(LStrip(s))
  }

  /** A string without whitespace at either end is left alone by `strip()`. */
  lemma StripTrimmed(s: string)
    requires s == [] || (!IsSpace(s[0]) && !IsSpace(s[|s| - 1]))
    ensures Strip(s) == s
  {
  }

  /** `str.rstrip(c)` for a single character `c`. */
  function RStripChar(s: string, c: char): (r: string)
    ensures IsPrefix(r, s)
    ensures forall k :: |r| <= k < |s| ==> s[k] == c
    ensures r == [] || r[|r| - 1] != c
    decreases |s|
  {
    if s != [] && s[|s| - 1] == c then RStripChar(s[..|s| - 1], c) else s
  }
}

=== FILE: tiktok.dfy ===
/** The `/ttdown/download` route of both files: resolve the video URL, post it
    to the provider, and classify the anchors of the returned page into the
    result record. The two files differ in where they read the URL, which
    anchors they look at, the messages they send, and two extra fields. */
module TikTok {
  import opened Options
  import opened Seqs
  import opened Params
  import opened Upstream
  import opened Extract

  const ProviderEndpoint: string := "https://ttsave.app/download"
  const Platform: string := "tiktok"

  /** The provider's page as the parser sees it: its anchors in document
      order and the text of its first `<h2>`, if any. */
  datatype Page = Page(anchors: seq<Anchor>, heading: Option<string>)

  /** What the provider POST returns. */
  datatype ProviderAnswer = ProviderAnswer(status: int, page: Page)

  /** api/index.py's `data` record. */
  datatype ApiData = ApiData(platform: string, kind: string, video: Option<string>, audio: Option<string>,
                             slides: seq<string>, cover: Option<string>, author: string)

  /** app.py's `data` record. */
  datatype AppData = AppData(platform: string, kind: string, video: Option<string>, audio: Option<string>,
                             slides: seq<string>)

  /** The route's reply: a 400 with a message for a missing URL or a failed
      provider call, or the data record. */
  datatype Reply<D> = MissingUrl(message: string) | ProviderFailed(message: string) | Success(data: D) {
    function Status(): int {
      if Success? then 200 else 400
    }
  }

  /** The provider POST with the file's own header set. */
  function ProviderCall(url: string, version: Version): Call {
    Call(Post, ProviderEndpoint, Profile(version, ShortVideo), [("query", url), ("language_id", "1")], false)
  }

  /** api/index.py's route; `answer` is what the provider POST returns. */
  function DownloadApi(args: Args, body: Body, answer: ProviderAnswer): (e: Exchange<Reply<ApiData>>)
    ensures e.calls == [] <==> Required(UrlApi(args, body)) == None
    ensures e.calls != [] ==> e.calls == [ProviderCall(UrlApi(args, body).value, ApiVersion)]
  {
    var url := Required(UrlApi(args, body));
    if url.None? then Exchange([], MissingUrl("URL required"))
    else
      var calls := [ProviderCall(url.value, ApiVersion)];
      if answer.status != 200 then Exchange(calls, ProviderFailed("Gagal menghubungi provider"))
      else
        var s := ScanApi(answer.page.anchors);
        Exchange(calls, Success(ApiData(Platform, s.kind.Tag(), s.Primary(), s.audio, s.slides,
                                        None, Author(answer.page.heading))))
  }

  /** app.py's route; `answer` is what the provider POST returns. */
  function DownloadApp(args: Args, body: Body, answer: ProviderAnswer): (e: Exchange<Reply<AppData>>)
    ensures e.calls == [] <==> Required(UrlApp(args, body)) == None
    ensures e.calls != [] ==> e.calls == [ProviderCall(UrlApp(args, body).value, AppVersion)]
  {
    var url := Required(UrlApp(args, body));
    if url.None? then Exchange([], MissingUrl("URL parameter required"))
    else
      var calls := [ProviderCall(url.value, AppVersion)];
      if answer.status != 200 then Exchange(calls, ProviderFailed("Provider unavailable"))
      else
        var s := ScanApp(answer.page.anchors);
        Exchange(calls, Success(AppData(Platform, s.kind.Tag(), s.Primary(), s.audio, s.slides)))
  }

  /** What the record's media fields mean for the links the loop classified:
      `video` is the first video link's href, or None when there is none;
      `audio` is the last audio link's href, or None when there is none;
      `slides` holds each slide href once, in first-seen order; `type` is
      `unknown` when no link set it and otherwise the tag of the last one that did. */
  ghost predicate Describes(links: seq<Link>, kind: string, video: Option<string>, audio: Option<string>,
                            slides: seq<string>)
  {
    && (video == None <==> forall i :: !VideoAt(links, i))
    && (video.Some? ==> exists i :: FirstVideoAt(links, i) && links[i].href == video.value)
    && (audio == None <==> forall i :: !AudioAt(links, i))
    && (audio.Some? ==> exists i :: LastAudioAt(links, i) && links[i].href == audio.value)
    && (forall h :: h in slides <==> SlideHref(links, h))
    && NoDuplicates(slides)
    && FirstSeenOrder(links, slides)
    && (kind == "unknown" <==> forall i :: !EventAt(links, i))
    && (forall i :: LastEventAt(links, i) ==> kind == EventType(links[i]).Tag())
  }

  lemma ScanDescribes(links: seq<Link>)
    ensures var s := Run(links); Describes(links, s.kind.Tag(), s.Primary(), s.audio, s.slides)
  {
    var s := Run(links);
    RunPrimary(links);
    RunAudio(links);
    RunSlides(links);
    RunKindUnknown(links);
    forall i | LastEventAt(links, i)
      ensures s.kind.Tag() == EventType(links[i]).Tag()
    {
      RunKindLast(links, i);
    }
  }

  /** api/index.py's outcomes: 400 `URL required` without a URL and without
      any upstream call; 400 `Gagal menghubungi provider` for any provider
      status but 200; otherwise a 200 with a record describing every anchor of the page
      (a missing href read as empty), with `cover` None and the author from
      the first heading. */
  lemma DownloadApiOutcomes(args: Args, body: Body, answer: ProviderAnswer)
    ensures var e := DownloadApi(args, body, answer);
      && (Required(UrlApi(args, body)) == None ==> e.reply == MissingUrl("URL required"))
      && (Required(UrlApi(args, body)) != None && answer.status != 200 ==>
            e.reply == ProviderFailed("Gagal menghubungi provider"))
      && (Required(UrlApi(args, body)) != None && answer.status == 200 ==> e.reply.Success?)
      && (e.reply.Success? ==>
            var d := e.reply.data;
            && e.reply.Status() == 200
            && d.platform == "tiktok" && d.cover == None && d.author == Author(answer.page.heading)
            && Describes(ApiLinks(answer.page.anchors), d.kind, d.video, d.audio, d.slides))
  {
    ScanDescribes(ApiLinks(answer.page.anchors));
  }

  /** app.py's outcomes: 400 `URL parameter required` without a URL and
      without any upstream call; 400 `Provider unavailable` for any provider
      status but 200; otherwise a 200 with a record describing the anchors with a
      non-empty href, none of whose links is empty. */
  lemma DownloadAppOutcomes(args: Args, body: Body, answer: ProviderAnswer)
    ensures var e := DownloadApp(args, body, answer);
      && (Required(UrlApp(args, body)) == None ==> e.reply == MissingUrl("URL parameter required"))
      && (Required(UrlApp(args, body)) != None && answer.status != 200 ==>
            e.reply == ProviderFailed("Provider unavailable"))
      && (Required(UrlApp(args, body)) != None && answer.status == 200 ==> e.reply.Success?)
      && (e.reply.Success? ==>
            var d := e.reply.data;
            && e.reply.Status() == 200
            && d.platform == "tiktok"
            && Describes(AppLinks(answer.page.anchors), d.kind, d.video, d.audio, d.slides)
            && d.video != Some("") && d.audio != Some("") && "" !in d.slides)
  {
    ScanDescribes(AppLinks(answer.page.anchors));
    AppLinksNonEmpty(answer.page.anchors);
  }

  /** When only one place supplies the URL and every anchor has a non-empty
      href, the two files call the provider with the same URL and reply with
      the same status and the same media fields. */
  lemma VersionsAgree(args: Args, body: Body, answer: ProviderAnswer)
    requires !BodyTruthy(body) || ("url" in body.value && !Usable(Arg(args, "url")))
    requires forall k :: 0 <= k < |answer.page.anchors| ==> !Skipped(answer.page.anchors[k])
    ensures var api, app := DownloadApi(args, body, answer), DownloadApp(args, body, answer);
      && |api.calls| == |app.calls|
      && (forall k :: 0 <= k < |api.calls| ==> api.calls[k].params == app.calls[k].params)
      && api.reply.Status() == app.reply.Status()
      && (api.reply.Success? ==>
            var d, d' := api.reply.data, app.reply.data;
            d' == AppData(d.platform, d.kind, d.video, d.audio, d.slides))
  {
    UrlSourcesAgree(args, body);
    KeptWhenNoneSkipped(answer.page.anchors);
    AppMatchesApiOnKept(answer.page.anchors);
  }

  /** A truthy body without a usable `url` (none, or an empty one) makes
      api/index.py reject a request whose query names a URL, while app.py
      serves it. */
  lemma BodyWithoutUrlRejectedByApi(args: Args, body: Body, answer: ProviderAnswer)
    requires Usable(Arg(args, "url")) && BodyTruthy(body) && !Usable(Arg(body.value, "url"))
    ensures DownloadApi(args, body, answer).reply.Status() == 400
    ensures DownloadApi(args, body, answer).calls == []
    ensures DownloadApp(args, body, answer).calls == [ProviderCall(args["url"], AppVersion)]
  {
    BodyWithoutUrlHidesQuery(args, body);
  }
}

=== FILE: upstream.dfy ===
/** The upstream side of the handlers: the two providers, their browser-like
    header sets, the outbound calls a handler issues, and the response headers
    of the streaming routes. The HTTP client itself is outside the model: a
    handler returns the calls it would make, and upstream answers are inputs. */
module Upstream {
  import opened Options
  import opened Text
  import opened Relay

  /** The short-video provider (ttsave.app) and the music provider (spotdown.org). */
  datatype Provider = ShortVideo | MusicMeta

  type Headers = seq<(string, string)>

  datatype Method = Get | Post

  /** The two files carry their own fixed header sets. */
  datatype Version = ApiVersion | AppVersion

  /** Which fixed header set a request sends: the file's set for a provider. */
  datatype Profile = Profile(version: Version, provider: Provider) {
    function Headers(): Headers {
      match version
      case ApiVersion => ApiHeaders(provider)
      case AppVersion => AppHeaders(provider)
    }
  }

  /** One outbound request: method, endpoint, header profile, parameters (query
      or JSON body), and whether the body is streamed. */
  datatype Call = Call(verb: Method, endpoint: string, profile: Profile, params: seq<(string, string)>, stream: bool)

  /** What a handler did: the upstream calls it issued, in order, and its reply. */
  datatype Exchange<R> = Exchange(calls: seq<Call>, reply: R)

  /** Reply of a streaming route: a 400 for a missing parameter, a 500 when
      building the response raised (the handler's `except` clause), or a 200
      whose headers are fixed before the relayed chunks. */
  datatype StreamReply = MissingParam(message: string) | Failed(message: string)
                       | Streaming(headers: Headers, body: seq<Chunk>) {
    function Status(): int {
      match this
      case MissingParam(_) => 400
      case Failed(_) => 500
      case Streaming(_, _) => 200
    }
  }

  /** Werkzeug accepts a header value only if it holds no line break. */
  predicate HeaderSafe(v: string) {
    '\r' !in v && '\n' !in v
  }

  /** Every value of a header list is acceptable. */
  predicate AllHeaderSafe(headers: Headers) {
    forall k :: 0 <= k < |headers| ==> HeaderSafe(headers[k].1)
  }

  /** What Werkzeug's `ValueError` says when a header value has a line break;
      the handlers return it as the 500's error text. */
  const NewlineRefused: string := "Header values must not contain newline characters."

  /** `Response(stream, headers=...)` inside the handler's `try`: the stream is
      served under the headers when every value is acceptable; otherwise the
      constructor raises and the handler answers 500 with the error's text. */
  function Respond(headers: Headers, body: seq<Chunk>): (r: StreamReply)
    ensures r.Streaming? <==> AllHeaderSafe(headers)
    ensures r.Streaming? ==> r.headers == headers && r.body == body
    ensures !r.Streaming? ==> r == Failed(NewlineRefused)
  {
    if AllHeaderSafe(headers) then Streaming(headers, body) else Failed(NewlineRefused)
  }

  /** Header sets of api/index.py. */
  function ApiHeaders(p: Provider): Headers {
    match p
    case MusicMeta => [
      ("authority", "spotdown.org"),
      ("accept", "application/json, text/plain, */*"),
      ("user-agent", "Mozilla/5.0 (Windows NT 10.0; Win64; x64) AppleWebKit/537.36 (KHTML, like Gecko) Chrome/120.0.0.0 Safari/537.36"),
      ("referer", "https://spotdown.org/")]
    case ShortVideo => [
      ("authority", "ttsave.app"),
      ("user-agent", "Mozilla/5.0 (Macintosh; Intel Mac OS X 10_15_7) AppleWebKit/537.36 (KHTML, like Gecko) Chrome/120.0.0.0 Safari/537.36"),
      ("referer", "https://ttsave.app/")]
  }

  /** Header sets of app.py. */
  function AppHeaders(p: Provider): Headers {
    match p
    case MusicMeta => [
      ("authority", "spotdown.org"),
      ("accept", "application/json, text/plain, */*"),
      ("accept-language", "id-ID,id;q=0.9,en-US;q=0.8,en;q=0.7"),
      ("referer", "https://spotdown.org/search"),
      ("user-agent", "Mozilla/5.0 (Linux; Android 10; K) AppleWebKit/537.36 (KHTML, like Gecko) Chrome/139.0.0.0 Mobile Safari/537.36")]
    case ShortVideo => [
      ("authority", "ttsave.app"),
      ("accept", "application/json, text/plain, */*"),
      ("accept-language", "id-ID,id;q=0.9,en-US;q=0.8,en;q=0.7"),
      ("content-type", "application/json"),
      ("origin", "https://ttsave.app"),
      ("referer", "https://ttsave.app/en"),
      ("user-agent", "Mozilla/5.0 (Linux; Android 10; K) AppleWebKit/537.36 (KHTML, like Gecko) Chrome/132.0.0.0 Mobile Safari/537.36")]
  }

  /** `stream_content` picks the short-video headers exactly when the URL
      mentions `tiktok` or `ttsave`, and the music headers otherwise. */
  function StreamProvider(url: string): (p: Provider)
    ensures p == ShortVideo <==> Contains(url, "tiktok") || Contains(url, "ttsave")
  {
    if Contains(url, "tiktok") || Contains(url, "ttsave") then ShortVideo else MusicMeta
  }

  /** `Content-Disposition: attachment; filename="<name>"`. */
  function Disposition(name: string): string {
    "attachment; filename=\"" + name + "\""
  }

  const DispositionPrefix: string := "attachment; filename=\""

  /** Reads the file name back out of a Content-Disposition value. */
  function DispositionName(v: string): Option<string> {
    var n := |DispositionPrefix|;
    if |v| >= n + 1 && v[..n] == DispositionPrefix && v[|v| - 1] == '"' && '"' !in v[n..|v| - 1]
    then Some(v[n..|v| - 1])
    else None
  }

  /** The Content-Disposition value is acceptable exactly when the name is. */
  lemma DispositionSafe(name: string)
    ensures HeaderSafe(Disposition(name)) <==> HeaderSafe(name)
  {
    var v := Disposition(name);
    assert v == DispositionPrefix + name + "\"";
    assert '\r' !in DispositionPrefix && '\n' !in DispositionPrefix;
  }

  /** A name without a double quote survives the header intact. */
  lemma DispositionRoundTrip(name: string)
    requires '"' !in name
    ensures DispositionName(Disposition(name)) == Some(name)
  {
    var v := Disposition(name);
    var n := |DispositionPrefix|;
    assert v == DispositionPrefix + name + "\"";
    assert v[..n] == DispositionPrefix;
    assert v[n..|v| - 1] == name;
  }
}
